=== FILE: README.md ===
# Trading engine core in Dafny

This project models the simulation and execution core of a Python trading
engine and proves properties of it:

- a bar-by-bar backtest loop (FLAT / OPEN state machine) driving a simple executor and a basic risk manager;
- an order-based execution handler with simulated fills, slippage, a per-symbol position table and a trade ledger;
- an advanced risk manager with volatility- and correlation-scaled sizing, a trailing stop, the portfolio-optimizer dispatch and the rebalance rule;
- the moving-average crossover strategy, the ensemble strategy and the ML strategy's signal mapping;
- the data manager's cache, source lookup, interval mapping and frame validation;
- the dotted-key configuration store;
- the retry decorator.

Each Python module is one Dafny module in one file:

| file | module | Python source |
|---|---|---|
| common.dfy | `Common` | shared: `Option`, `Result`, `sum`, `str.split` / `str.join` |
| risk_manager.dfy | `RiskRules` | src/risk_management/risk_manager.py |
| advanced_risk.dfy | `AdvancedRisk` | src/risk_management/advanced_risk.py |
| executor.dfy | `SimpleExecution` | src/execution/executor.py |
| backtester.dfy | `Backtesting` | src/backtesting/backtester.py |
| advanced_executor.dfy | `AdvancedExecution` | src/execution/advanced_executor.py |
| data_manager.dfy | `MarketData` | src/data/data_manager.py |
| strategy.dfy | `Crossover` | src/strategies/strategy.py |
| advanced_strategy.dfy | `Ensemble` | src/strategies/advanced_strategy.py |
| config.dfy | `Settings` | src/utils/config.py |
| error_handling.dfy | `Retrying` | src/utils/error_handling.py |

Modelling conventions:

- Floats are `real`.
- Where Python would produce NaN or infinity from a division by zero, the model returns `None`.
- Where Python raises an exception the caller can observe, the model returns a `Result` error.
  - `ZeroDivisionError`, `KeyError`, the `TypeError` of arithmetic or a comparison on `None`, and `ValueError` are all modelled this way.
- Objects whose fields the source updates in place become classes: the executor, the execution handler and its orders, the backtester, the ensemble, the configuration and the data manager. Their methods are proved against pure specification functions.
- Library and network calls become parameters. These cover:
  - the data sources and indicator computation (a loader function);
  - the SLSQP solver (a function from the solver request to weights);
  - the classifier's probabilities;
  - the component strategies' signals;
  - the wrapped function of the retry decorator (its outcome on the n-th call).
- Sleeping is recorded as the list of delays. `datetime.now()` is a timestamp parameter.

### Behaviour followed from the code

The model follows the code wherever the code and its comments or documented intent differ:

- **Sells never re-base a position.** In the execution handler a sell always books `(fill price - average price) * quantity` and keeps the average price.
  - A sell from flat books the whole notional as realized PnL (`SellFromFlatBooksNotional`).
  - A buy that covers a short is averaged, not realized.
  - A position's realized PnL is lost when its entry is deleted at zero quantity (`RoundTripDropsEntry`).
  - Commission goes into the ledger but is never deducted from realized PnL.
- **Limit orders are compared against `stop_price`.** The limit price is compared with the order's own stop price, not with a market price.
  - Stop-loss, take-profit and trailing-stop orders stay pending in simulation.
- **A zero-quantity fill on a symbol with no entry raises `KeyError`** on the delete. The order is then not recorded.
- **`get_open_orders("")` does not filter,** exactly like `get_open_orders(None)`.
- **Adding to a position overwrites the price.** The simple executor stores the latest price rather than an average, despite its comment.
- **The entry commission is charged twice in a backtest.** It is subtracted from capital at the entry, and the closing PnL subtracts both legs' commissions again (`RoundTripScenario`: final capital 100096.9).
- **The crossover strategy ignores its window parameters.** It always reads the `SMA_20` and `SMA_50` columns.
- **The data cache key is ambiguous.** Arguments containing `_`, or a date equal to the string `"None"`, can collide (`CacheKeyCollisions`).
- **The ML strategy's sell condition wins.** With a threshold below one half, a probability can meet both conditions, and the later `-1` assignment wins.
- **The backtester divides NumPy scalars.** The close and the rolling volatility come out of a data frame, so the loop's divisions follow IEEE rules instead of raising.
  - A zero volatility with a cap of the close's sign sizes the entry at cap / close (`ZeroVolatilitySizesAtCap`). The volatility term is then +inf and loses the `min`.
  - Zero times a negative close is -0.0, so a positive cap at a negative close gives a -inf term, which wins the `min` (`NegativeCloseSignedZero`).
  - After a trade the capital is a NumPy scalar too. A zero initial capital then gives a non-finite total return (`None`) instead of `ZeroDivisionError`. Without a trade in the run, the error is raised.
- **Sizing does not reject bad volatility.**
  - Neither risk manager rejects an undefined volatility.
  - The basic one divides by `volatility * price`.
  - The advanced one fails only when `1 + volatility` or the price is zero.

## Model

| member | source | states |
|---|---|---|
| Common.Split | src/utils/config.py:54 | `key.split('.')` always yields at least one piece and no piece contains the separator |
| Common.SplitJoin | src/utils/config.py:54 | splitting the separator-join of separator-free pieces gives the pieces back |
| RiskRules.PositionSize | src/risk_management/risk_manager.py:13-20 | sizing fails exactly when `volatility * price` is zero; otherwise the size is the smaller of the volatility-scaled quotient and cap / price |
| RiskRules.SizeAtLowVolatility | src/risk_management/risk_manager.py:18-20 | for 0 < volatility <= 1 the cap / price term is the binding one |
| RiskRules.SizeNonIncreasingInVolatility | src/risk_management/risk_manager.py:18-20 | a higher positive volatility never gives a larger size |
| RiskRules.ZeroPriceRejected | src/risk_management/risk_manager.py:19 | a zero price is a division error whatever the volatility |
| RiskRules.CheckStopLoss | src/risk_management/risk_manager.py:22-31 | a flat position never triggers the stop |
| RiskRules.CheckTakeProfit | src/risk_management/risk_manager.py:33-42 | a flat position never triggers take-profit |
| RiskRules.StopLossBoundary | src/risk_management/risk_manager.py:27-28 | the long stop is strict: 97.99 triggers at entry 100 with a 2% stop, 98 and 98.01 do not |
| RiskRules.StopAndTakeExclusive | src/risk_management/risk_manager.py:22-42 | with non-negative fractions and entry, stop-loss and take-profit never both fire |
| RiskRules.StopLossMonotone | src/risk_management/risk_manager.py:27-30 | once a long stop fires at a price it fires at every lower price (higher for a short) |
| AdvancedRisk.Max3 | src/risk_management/advanced_risk.py:162 | the three-way max is an upper bound of its arguments and equals one of them |
| AdvancedRisk.CorrelationAdjustment | src/risk_management/advanced_risk.py:136-139 | no correlation gives 1; a correlation in [-1, 1] gives a factor in [0, 1] |
| AdvancedRisk.PositionSize | src/risk_management/advanced_risk.py:123-143 | sizing fails exactly when `1 + volatility` or the price is zero; a size never exceeds max position value / price |
| AdvancedRisk.SizeFromCap | src/risk_management/advanced_risk.py:133-143 | the same failure condition and upper bound, for a given cap |
| AdvancedRisk.SizeBounds | src/risk_management/advanced_risk.py:129-143 | with a positive price, non-negative cap and volatility and a valid correlation, the size lies in [0, cap / price] |
| AdvancedRisk.CapSizeBounds | src/risk_management/advanced_risk.py:133-143 | the size from a non-negative cap with factor in [0, 1] lies in [0, cap / price] |
| AdvancedRisk.SizeNonIncreasingInVolatility | src/risk_management/advanced_risk.py:133-143 | a higher non-negative volatility never gives a larger size |
| AdvancedRisk.CapSizeAntitone | src/risk_management/advanced_risk.py:133-143 | for a fixed cap the size is non-increasing in volatility |
| AdvancedRisk.FullCorrelationGivesZero | src/risk_management/advanced_risk.py:136-143 | a correlation of +1 or -1 gives size zero |
| AdvancedRisk.TrailingStop | src/risk_management/advanced_risk.py:151-162 | the stop is at least the ATR stop, the initial stop below entry and the stop below the running high |
| AdvancedRisk.TrailingStopIsOneOfFloors | src/risk_management/advanced_risk.py:158-162 | the stop equals one of its three floors |
| AdvancedRisk.TrailingStopMonotoneInHigh | src/risk_management/advanced_risk.py:160-162 | a higher running high never lowers the stop (stop-loss fraction at most 1) |
| AdvancedRisk.TrailingStopMonotoneInCurrent | src/risk_management/advanced_risk.py:158-162 | a higher current price never lowers the stop |
| AdvancedRisk.DefaultTrailingStops | src/risk_management/advanced_risk.py:110-162 | with the defaults (2% stop, multiplier 2) the stop below the high binds at 107.8 in one case and the ATR stop at 118 in another |
| AdvancedRisk.MethodObjective | src/risk_management/advanced_risk.py:19-26 | exactly the names sharpe, min_var and max_div select an objective |
| AdvancedRisk.EqualWeights | src/risk_management/advanced_risk.py:44 | the starting point has one weight per asset |
| AdvancedRisk.OptimizePortfolio | src/risk_management/advanced_risk.py:15-48 | fails exactly for an unknown method (ValueError) or no assets; otherwise asks the solver for the named objective from equal weights within bounds [0, 1] |
| AdvancedRisk.StartIsFeasible | src/risk_management/advanced_risk.py:37-44 | the solver's starting point satisfies the bounds and sums to one |
| AdvancedRisk.UpdatePortfolioRisk | src/risk_management/advanced_risk.py:164-191 | a rebalance is flagged exactly when volatility exceeds max drawdown, and weights are given exactly then; fails only when a rebalance has no assets; the Sharpe ratio is undefined exactly at zero volatility |
| AdvancedRisk.RebalanceAsksForMaxSharpe | src/risk_management/advanced_risk.py:176-184 | the suggested weights are the solver's answer to a max-Sharpe request started from equal weights |
| SimpleExecution.TradeStep | src/execution/executor.py:11-51 | commission is price * size * rate; the action is buy exactly for a positive signal; the entry carries the call's fields; other symbols' positions are untouched |
| SimpleExecution.OpeningTrade | src/execution/executor.py:42-48 | a trade on a symbol without a position opens one and books no PnL |
| SimpleExecution.AddingTrade | src/execution/executor.py:38-41 | the same signal adds to the size, stores the latest price and books no PnL |
| SimpleExecution.ClosingTrade | src/execution/executor.py:28-37 | another signal removes the position and books gross PnL in the held direction minus commission on both legs |
| SimpleExecution.ClosingPnl | src/execution/executor.py:53-62 | commission never adds to the gross PnL of the held direction, so a round trip at an unchanged price never makes money |
| SimpleExecution.WorkedClosingPnl | src/execution/executor.py:53-62 | entry 100, exit 110, size 10 at 0.1% gives 97.9 |
| SimpleExecution.Executor.constructor | src/execution/executor.py:6-9 | a new executor has no positions and no trades |
| SimpleExecution.Executor.ExecuteTrade | src/execution/executor.py:11-51 | the new table and returned entry are those of `TradeStep`, and the ledger grows by exactly that entry |
| Backtesting.ExitTriggered | src/backtesting/backtester.py:66-68 | an opposite signal always exits; a long holds while the close stays between entry * (1 - stop) and entry * (1 + take) and the signal is not bearish, and a short mirrors this |
| Backtesting.BarSize | src/backtesting/backtester.py:42-52 | the size is non-finite exactly for a zero close, or for a zero volatility * close with a cap that is zero or of the other sign than the close; it agrees with the basic risk manager wherever that succeeds, and never exceeds cap / close |
| Backtesting.ZeroVolatilitySizesAtCap | src/backtesting/backtester.py:42-52 | a zero volatility with a cap of the close's sign sizes the entry at cap / close |
| Backtesting.NegativeCloseSignedZero | src/backtesting/backtester.py:42-52 | at a negative close a positive cap and zero volatility give a non-finite size (-0.0 divisor), while the same cap at the mirrored positive close is sized at cap / close |
| Backtesting.Step | src/backtesting/backtester.py:41-80 | a bar appends at most one trade and changes nothing when it appends none; the position only goes from flat to the bar's signal or back to flat; a sizing stop happens only on a flat bar with a signal, a missing position only on an exit |
| Backtesting.Replay | src/backtesting/backtester.py:41-80 | the loop only appends to the ledger, and a run that appends nothing leaves the state unchanged |
| Backtesting.CountProfitable | src/backtesting/backtester.py:86-87 | the profitable count never exceeds the number of trades |
| Backtesting.TotalPnl | src/backtesting/backtester.py:88 | the total PnL is not positive when no trade is profitable, and positive when every trade is |
| Backtesting.Summarize | src/backtesting/backtester.py:84-103 | fails exactly for zero initial capital in a run without trades; the total return is undefined exactly for zero initial capital and otherwise times the initial capital equals the capital gained; win rate in [0, 1] and 0 without trades |
| Backtesting.EntryOpensPosition | src/backtesting/backtester.py:47-62 | a signal on a flat bar opens a position in its direction at the bar's close and pays the entry commission |
| Backtesting.OpenBarWithoutExitIsIdle | src/backtesting/backtester.py:64-68 | an open bar with no stop, take-profit or opposite signal changes nothing |
| Backtesting.FlatBarWithoutSignalIsIdle | src/backtesting/backtester.py:47-64 | a flat bar with signal 0 changes nothing |
| Backtesting.ExitClosesPosition | src/backtesting/backtester.py:64-80 | an exit from a synced open state succeeds, goes flat, removes the executor's position and adds the closing PnL to capital |
| Backtesting.StepKeepsSynced | src/backtesting/backtester.py:41-80 | the loop's position and the executor's table stay in agreement, so the exit lookup never raises |
| Backtesting.ReplayKeepsSynced | src/backtesting/backtester.py:41-80 | the agreement holds over any sequence of bars, and no run fails on a missing position |
| Backtesting.RoundTripScenario | src/backtesting/backtester.py:37-103 | capital 100000, entry at 100 for 10 units, take-profit exit at 110: final capital 100096.9, two trades, one profitable, win rate 0.5 |
| Backtesting.Backtester.constructor | src/backtesting/backtester.py:10-15 | the backtester owns a fresh, empty executor with the given commission |
| Backtesting.Backtester.Run | src/backtesting/backtester.py:17-103 | the loop reaches the state `Replay` gives (executor kept across runs), and the report is `Summarize` of it, with "traded" meaning the ledger grew in this run, or the loop's error |
| AdvancedExecution.SimulatedFill | src/execution/advanced_executor.py:130-149 | a resolved order is pending or filled; a filled one fills its whole quantity; a pending one has nothing filled |
| AdvancedExecution.MarketOrderFills | src/execution/advanced_executor.py:132-137 | a market order fills in full at price * (1 + slippage) for a buy and price * (1 - slippage) for a sell |
| AdvancedExecution.LimitOrderFillsIffMarketable | src/execution/advanced_executor.py:139-146 | a limit order fills at its own price exactly when marketable against its stop price, otherwise stays pending |
| AdvancedExecution.ConditionalOrdersStayPending | src/execution/advanced_executor.py:130-149 | stop-loss, take-profit and trailing-stop orders are never filled in simulation |
| AdvancedExecution.UpdatedPosition | src/execution/advanced_executor.py:155-173 | a buy adds its quantity and never realizes PnL (average 0 when the result is not long); a sell subtracts its quantity and never moves the average price |
| AdvancedExecution.ApplyFill | src/execution/advanced_executor.py:151-178 | the update fails exactly when a zero resulting quantity is deleted from an absent entry; other symbols are untouched |
| AdvancedExecution.ApplyFillKeepsNoZeroEntries | src/execution/advanced_executor.py:175-178 | the table never keeps a zero-quantity entry, and the symbol is present exactly when its new quantity is non-zero |
| AdvancedExecution.BuyFillAverages | src/execution/advanced_executor.py:161-167 | a buy adds the quantity and stores the quantity-weighted average price |
| AdvancedExecution.BuyAverageBetween | src/execution/advanced_executor.py:161-167 | adding to a long keeps the average between the old average and the fill price |
| AdvancedExecution.SellFillRealizes | src/execution/advanced_executor.py:169-173 | a sell reduces the quantity, keeps the average and realizes (fill - average) * quantity |
| AdvancedExecution.ZeroFillOnAbsentSymbolFails | src/execution/advanced_executor.py:175-176 | a zero fill on a symbol without an entry raises on the delete |
| AdvancedExecution.SellFromFlatBooksNotional | src/execution/advanced_executor.py:155-173 | a sell from flat opens a short at average 0 and books the whole notional as realized PnL |
| AdvancedExecution.RoundTripDropsEntry | src/execution/advanced_executor.py:161-178 | buying then selling the same quantity restores the table, discarding the realized PnL |
| AdvancedExecution.MarketValue | src/execution/advanced_executor.py:226-234 | an unpriced or empty entry is worth nothing, and a long at a non-negative price is never a liability |
| AdvancedExecution.PortfolioValue | src/execution/advanced_executor.py:226-234 | a book of longs at non-negative prices is worth at least nothing |
| AdvancedExecution.PortfolioValueSplit | src/execution/advanced_executor.py:226-234 | the portfolio value is one entry's market value plus the value of the rest, in any order of summation |
| AdvancedExecution.UnpricedPortfolioIsWorthless | src/execution/advanced_executor.py:229-232 | with no prices the portfolio is worth zero |
| AdvancedExecution.Order.constructor | src/execution/advanced_executor.py:24-43 | a new order keeps its request fields and is pending with nothing filled |
| AdvancedExecution.TradeOf | src/execution/advanced_executor.py:180-194 | the ledger entry carries the fill's symbol, side, quantity and price, with commission quantity * price * rate |
| AdvancedExecution.OpenOrders | src/execution/advanced_executor.py:203-207 | exactly the pending orders (on the symbol, when given) are listed, and no others |
| AdvancedExecution.OpenOrdersConcat | src/execution/advanced_executor.py:203-207 | listing a concatenation is the concatenation of the listings, so the pending orders keep their order and multiplicity |
| AdvancedExecution.ExecutionHandler.constructor | src/execution/advanced_executor.py:46-56 | a new handler has no positions, orders or trades |
| AdvancedExecution.ExecutionHandler.CreateOrder | src/execution/advanced_executor.py:75-101 | the order is resolved, the positions and ledger follow `ApplyFill`/`TradeOf`, and it is recorded; on an exception nothing is recorded |
| AdvancedExecution.ExecutionHandler.ExecuteSimulatedOrder | src/execution/advanced_executor.py:130-149 | the order's status and fill follow `SimulatedFill`; a fill updates positions via `ApplyFill` and appends its trade |
| AdvancedExecution.ExecutionHandler.UpdatePositions | src/execution/advanced_executor.py:151-178 | only a filled order changes the table, as `ApplyFill` says, keeping the no-zero-entry invariant |
| AdvancedExecution.ExecutionHandler.RecordTrade | src/execution/advanced_executor.py:180-194 | only a filled order appends its ledger entry |
| AdvancedExecution.ExecutionHandler.GetPosition | src/execution/advanced_executor.py:196-201 | the stored entry or the empty position; under the invariant, zero quantity means no entry |
| AdvancedExecution.ExecutionHandler.GetOpenOrders | src/execution/advanced_executor.py:203-207 | exactly the pending orders, filtered by symbol only for a non-empty symbol |
| AdvancedExecution.ExecutionHandler.CancelOrder | src/execution/advanced_executor.py:209-221 | cancelling succeeds exactly for a pending order, which becomes cancelled; others are unchanged |
| AdvancedExecution.ExecutionHandler.GetTradeHistory | src/execution/advanced_executor.py:223-224 | the history is the ledger in fill order |
| AdvancedExecution.ExecutionHandler.CalculatePortfolioValue | src/execution/advanced_executor.py:226-234 | the loop sums quantity * price over the priced entries |
| MarketData.FirstWith | src/data/data_manager.py:131 | the first row with a timestamp is a row carrying it; none exists exactly when the timestamp is absent |
| MarketData.DedupeAfter | src/data/data_manager.py:131 | the kept rows have distinct timestamps, cover the unseen ones, and each is the first row with its timestamp |
| MarketData.Dedupe | src/data/data_manager.py:131 | de-duplication keeps exactly one row per timestamp, the first |
| MarketData.DedupeAfterKeepsDistinct | src/data/data_manager.py:131 | a frame with distinct timestamps is left as it is |
| MarketData.DedupeIdempotent | src/data/data_manager.py:131 | de-duplicating twice equals de-duplicating once |
| MarketData.ForwardFill | src/data/data_manager.py:137 | forward fill keeps the row count, the timestamps and each row's width |
| MarketData.FillKeepsPresentAndCopiesDown | src/data/data_manager.py:137 | present cells are kept; a missing cell takes the filled value above it; a missing first-row cell stays missing |
| MarketData.MissingAfterFillIsLeading | src/data/data_manager.py:137 | a cell is still missing after the fill exactly when its column has no value at or above it |
| MarketData.DropMissing | src/data/data_manager.py:140 | exactly the complete rows are kept |
| MarketData.DropMissingKeepsOrder | src/data/data_manager.py:140 | dropping rows keeps timestamps strictly increasing |
| MarketData.RowSurvivesOnceEveryColumnSeen | src/data/data_manager.py:137-140 | a row below a value in every column survives fill-and-drop |
| MarketData.Swap | src/data/data_manager.py:134 | exchanging two rows is a permutation |
| MarketData.SortByTimestampInPlace | src/data/data_manager.py:134 | the frame ends sorted by timestamp, as a permutation of itself, with distinct timestamps kept distinct |
| MarketData.ForwardFillInPlace | src/data/data_manager.py:137 | the in-place fill leaves exactly `ForwardFill` of the old frame |
| MarketData.ValidateData | src/data/data_manager.py:128-142 | the result has strictly increasing timestamps, no missing cells and only input timestamps, and is fill-and-drop of a sorted de-duplicated frame |
| MarketData.ValidatedOrderAndTimestamps | src/data/data_manager.py:128-142 | fill-and-drop of any sorted permutation of the de-duplicated frame is strictly increasing and uses only input timestamps |
| MarketData.ConvertInterval | src/data/data_manager.py:38-41 | the exchange is always asked for one of the four known timeframes |
| MarketData.ConvertIntervalCases | src/data/data_manager.py:38-41 | known timeframes map to themselves, any other to "1d"; the mapping is idempotent |
| MarketData.SourceNamed | src/data/data_manager.py:48-51 | exactly "yahoo" and "crypto" name a source; any other name is a lookup error |
| MarketData.RequestFor | src/data/data_manager.py:21-36 | only the crypto source gets an OHLCV request, at a known timeframe, for the same symbol |
| MarketData.CacheKey | src/data/data_manager.py:64 | without '_' in any argument, splitting the key at '_' gives the five arguments back |
| MarketData.CacheKeyCollisions | src/data/data_manager.py:64 | two different argument lists can share a cache key |
| MarketData.CacheKeyInjective | src/data/data_manager.py:64 | without '_' in arguments and without the date "None", equal keys mean equal arguments |
| MarketData.FetchStep | src/data/data_manager.py:57-84 | a failure leaves the cache unchanged; a success caches the frame under its key; an unknown source on a cache miss fails |
| MarketData.RepeatFetchHitsCache | src/data/data_manager.py:64-68 | a repeated successful call is answered from the cache, whatever the source would now return |
| MarketData.FailedFetchIsNotCached | src/data/data_manager.py:71-84 | a failed load leaves no cache entry |
| MarketData.DataManager.constructor | src/data/data_manager.py:43-55 | a new manager has an empty cache |
| MarketData.DataManager.FetchData | src/data/data_manager.py:57-84 | the result and the new cache are those of `FetchStep` |
| Crossover.RowSignal | src/strategies/strategy.py:15-21 | long exactly when SMA20 > SMA50, short exactly when below, flat exactly when either is NaN or they are equal |
| Crossover.GenerateSignals | src/strategies/strategy.py:15-22 | one signal per row, each in {-1, 0, 1} and decided by that row alone |
| Crossover.SignalsIgnoreWindows | src/strategies/strategy.py:11-21 | the window parameters do not affect the signals |
| Crossover.SwappingAveragesNegates | src/strategies/strategy.py:19-20 | exchanging the two averages negates every signal |
| Crossover.FlatRows | src/strategies/strategy.py:16-20 | warm-up rows and equal averages give 0 |
| Ensemble.InitialWeights | src/strategies/advanced_strategy.py:113 | given weights are kept; otherwise n equal weights 1/n, or ZeroDivisionError for no strategies |
| Ensemble.DefaultWeightsSumToOne | src/strategies/advanced_strategy.py:113 | the default weights sum to one |
| Ensemble.Vote | src/strategies/advanced_strategy.py:123 | the vote is 1 exactly above 0.5, -1 exactly below -0.5, else 0 |
| Ensemble.VoteBoundaries | src/strategies/advanced_strategy.py:123 | scores of exactly +-0.5 do not trade |
| Ensemble.Pairs | src/strategies/advanced_strategy.py:118 | `zip` takes as many pairs as the shorter list |
| Ensemble.Weighted | src/strategies/advanced_strategy.py:120 | one strategy's contribution lies within its non-negative weight for a signal in [-1, 1] |
| Ensemble.ScoreUpToBounds | src/strategies/advanced_strategy.py:116-120 | over any prefix of the pairs, a flat row scores 0 and the score lies within the total weight |
| Ensemble.Score | src/strategies/advanced_strategy.py:116-120 | a row where every component is flat scores 0; with non-negative weights and signals in [-1, 1] the score lies within the total weight of the zipped pairs |
| Ensemble.AgreeingScore | src/strategies/advanced_strategy.py:116-120 | when all components agree on s, the score is s times the weight total |
| Ensemble.UnanimousVote | src/strategies/advanced_strategy.py:115-124 | with weights summing to one, unanimous +-1 components make the ensemble signal the same |
| Ensemble.SplitVoteIsFlat | src/strategies/advanced_strategy.py:115-124 | two equally weighted opposing strategies give 0 |
| Ensemble.NormalizeWeights | src/strategies/advanced_strategy.py:146-147 | normalisation is undefined exactly for a zero total and keeps the length |
| Ensemble.NormalizedSumsToOne | src/strategies/advanced_strategy.py:147 | normalised weights sum to one |
| Ensemble.NormalizedStaysNonNegative | src/strategies/advanced_strategy.py:146-147 | non-negative suggested weights stay non-negative |
| Ensemble.EnsembleStrategy.constructor | src/strategies/advanced_strategy.py:111-113 | the ensemble stores its strategies' count and weights |
| Ensemble.EnsembleStrategy.GenerateSignals | src/strategies/advanced_strategy.py:115-124 | the accumulating loop gives, per row, the vote on the weighted score |
| Ensemble.EnsembleStrategy.ApplyOptimizedWeights | src/strategies/advanced_strategy.py:146-147 | the stored weights are the normalised best weights and sum to one |
| Ensemble.NewEnsemble | src/strategies/advanced_strategy.py:110-113 | construction fails exactly when the default weights do, and otherwise stores them |
| Ensemble.MlSignal | src/strategies/advanced_strategy.py:63-65 | -1 exactly below 1 - threshold; 1 exactly above the threshold when not overridden; values in {-1, 0, 1} |
| Ensemble.MlSignalOverlap | src/strategies/advanced_strategy.py:64-65 | from a threshold of one half the conditions are exclusive; below it -1 wins |
| Ensemble.MlSignals | src/strategies/advanced_strategy.py:57-66 | an unfitted model or empty feature matrix gives all zeros; otherwise each row maps its probability |
| Settings.Lookup | src/utils/config.py:53-63 | a value found by the walk is never null |
| Settings.GetSpec | src/utils/config.py:53-63 | the value at the dotted key, or the default when the walk meets a non-dictionary, a missing key or a null; null only when the default is null; a non-dictionary configuration always gives the default |
| Settings.GetCases | src/utils/config.py:53-63 | falsy stored values come back; null, missing keys and paths through a scalar give the default |
| Settings.TwoSegments | src/utils/config.py:54 | a two-segment dotted key splits into its segments |
| Settings.DefaultStopLoss | src/utils/config.py:20-43 | the default configuration's stop-loss is 0.02 |
| Settings.DefaultInitialCapital | src/utils/config.py:28-32 | the default initial capital is 100000 |
| Settings.DefaultHasNoTradingMode | src/utils/config.py:20-43 | the default configuration has no trading mode |
| Settings.Assign | src/utils/config.py:65-72 | a write succeeds exactly when the root and every intermediate that already exists on the path are dictionaries; other top-level keys are unchanged |
| Settings.EmptyIsWritable | src/utils/config.py:69-70 | an empty dictionary accepts any path |
| Settings.LookupAfterAssign | src/utils/config.py:53-72 | after a write of a non-null value, its path finds it |
| Settings.GetAfterSet | src/utils/config.py:53-72 | `get` after `set` on the same key returns the value set |
| Settings.NothingBelowMissing | src/utils/config.py:57-61 | nothing is found below a missing key |
| Settings.AssignLeavesOtherPaths | src/utils/config.py:65-72 | paths diverging from the written one read the same afterwards |
| Settings.WriteThroughScalarFails | src/utils/config.py:69-70 | writing below a scalar fails |
| Settings.Config.constructor | src/utils/config.py:7-18 | the configuration is the file's contents, or the defaults without a file |
| Settings.Config.Get | src/utils/config.py:53-63 | the walking loop returns the path's value or the default |
| Settings.Config.Set | src/utils/config.py:65-75 | a successful write stores `Assign`'s result; a failing one leaves the configuration unchanged |
| Retrying.NextDelay | src/utils/error_handling.py:26 | the next delay is non-negative from a non-negative delay and factor, and never shorter with a factor of at least 1 |
| Retrying.RetryFrom | src/utils/error_handling.py:16-27 | at most max_retries calls, one sleep between consecutive calls, every recorded sleep non-negative (a negative one raises `ValueError` instead); no attempts means no call and None |
| Retrying.Retry | src/utils/error_handling.py:16-27 | None exactly when max_retries <= 0, and then no call; otherwise between one and max_retries calls with one sleep fewer |
| Retrying.RetryStep | src/utils/error_handling.py:20-26 | a retried failure with a non-negative delay sleeps it and continues with delay * backoff |
| Retrying.RetryCall | src/utils/error_handling.py:8-29 | the wrapper's loop produces exactly the result, call count and sleeps of `Retry` |
| Retrying.SleepsAreGeometric | src/utils/error_handling.py:25-26 | the k-th sleep from a starting delay d is d * backoff^k |
| Retrying.RetrySleeps | src/utils/error_handling.py:16-26 | the wrapper sleeps delay, delay * backoff, delay * backoff^2, ... |
| Retrying.FirstSuccessReturned | src/utils/error_handling.py:17-19 | with a non-negative delay and factor, the first success is returned after i + 1 calls and i sleeps |
| Retrying.TotalFailureReraisesLast | src/utils/error_handling.py:20-23 | with a non-negative delay and factor, when every attempt fails, the last exception is re-raised after max_retries calls |
| Retrying.DefaultPolicyFailure | src/utils/error_handling.py:8-26 | the defaults sleep 1 then 2 seconds and re-raise the third failure |
| Retrying.UnlistedPropagates | src/utils/error_handling.py:18-20 | an exception outside the listed ones propagates at once |
| Retrying.NegativeDelayRaises | src/utils/error_handling.py:24-25 | a negative initial delay makes the first retried failure end the run with `ValueError` after one call |
| Retrying.NegativeBackoffRaisesOnSecondSleep | src/utils/error_handling.py:24-26 | delay 1 with factor -1 sleeps once, then the second sleep raises `ValueError` after two calls |

## Left out

- Live trading is out of the model:
  - `_initialize_exchange` and `_execute_live_order`;
  - the live branch of `cancel_order`;
  - the `trading.mode` lookup that selects it.
  The model covers the simulated path, which the default configuration selects (`DefaultHasNoTradingMode`).
- Network and libraries: data sources (Yahoo, the ccxt exchange), Redis/MongoDB, pandas indicator computation (`_add_indicators`), scikit-learn and optuna are parameters or out of scope.
  - The data manager's loader stands for the source fetch plus indicators.
- The optimizer's objective functions and the SLSQP solve are not modelled (covariance algebra over floats, and the solver is a foreign call). The model covers the dispatch, starting point, bounds and sum-to-one constraint.
- `calculate_var` is not modelled. It is a NumPy percentile, a foreign numeric routine.
- `update_portfolio_risk`'s computation of return and volatility from the positions and the covariance matrix is not modelled. Both enter the model as inputs.
- The ML strategy's `train`, `_prepare_features` (scaling), `_prepare_labels` and both `optimize` methods' optuna studies are not modelled. They are foreign numeric code; only the final normalisation of the best weights is modelled (`ApplyOptimizedWeights`).
- YAML and dotenv I/O are not modelled: reading the file, writing the defaults and writing after `set`. The file contents are a constructor parameter.
- Logging and `print` are left out. `time.sleep` is recorded as a delay list. `datetime.now()` is a parameter.
- The exception classes declared in src/utils/error_handling.py:32-49 are not modelled. They carry no behaviour.
- Floats are reals: no rounding, overflow or NaN propagation. NaN cells in frames and NaN moving averages are `None`.
- Backtesting.Backtester.Run takes each bar's volatility as given. The NaN rolling volatility of the first 19 bars, and what sizing does with it, is not modelled.
- Backtesting.Backtester.Run stops with `NonFiniteSize` where the source goes on trading an infinite or NaN size: a zero close, or a zero volatility * close with a cap that is zero or of the other sign than the close. Reals have no infinity or NaN. The zero volatility is taken as +0.0, as a rolling standard deviation gives. `Backtesting.Step` stops in the same cases.
- Retrying.FirstSuccessReturned and Retrying.TotalFailureReraisesLast assume a non-negative delay and backoff factor. Otherwise a sleep can raise `ValueError` first (`NegativeDelayRaises`).
- Settings.Config: nested dictionaries are values, so the aliasing of a dictionary returned by `get` and later mutated is not captured.
- MarketData.ValidateData requires a rectangular frame (every row the same width), as a data frame always is. Index-label handling of pandas is not modelled; rows are ordered by an integer timestamp.
- AdvancedExecution.ExecutionHandler.ExecuteSimulatedOrder requires a freshly created pending order, as `create_order` always passes.
- Ensemble.EnsembleStrategy.ApplyOptimizedWeights requires a non-zero total. NumPy would store non-finite weights; that case is `NormalizeWeights` returning `None`.
- Ensemble.EnsembleStrategy.GenerateSignals takes the component strategies' signals as inputs, one aligned series per strategy.

=== FILE: advanced_executor.dfy ===
/** The execution handler in simulated mode: orders are objects whose status
    and fill fields change; the handler keeps a per-symbol position table
    (signed quantity, average price, realized PnL), the list of every order
    it created and an append-only trade ledger. */
module AdvancedExecution {
  import opened Common

  datatype OrderType = Market | Limit | StopLoss | TakeProfit | TrailingStop
  datatype OrderSide = Buy | Sell
  datatype OrderStatus = Pending | Filled | Cancelled | Failed

  /** A position table entry. */
  datatype Position = Position(quantity: real, averagePrice: real, realizedPnl: real)

  /** What `get_position` and the fill update use for a symbol without an entry. */
  const EmptyPosition: Position := Position(0.0, 0.0, 0.0)

  /** A trade ledger entry. */
  datatype Trade = Trade(
    timestamp: int,
    symbol: string,
    orderType: OrderType,
    side: OrderSide,
    quantity: real,
    price: real,
    commission: real)

  /** Exceptions of the simulated path: arithmetic or a comparison on a
      missing price (TypeError), or deleting an entry the table does not
      have (KeyError). */
  datatype ExecutionError = MissingPrice | MissingPosition(symbol: string)

  /** Status and fill fields of an order after simulated resolution. */
  datatype FillOutcome = FillOutcome(status: OrderStatus, filledQuantity: real, filledPrice: real)

  /** 1 + slippage for a buy, 1 - slippage for a sell. */
  function SlippageFactor(side: OrderSide, slippage: real): real
  {
    if side == Buy then 1.0 + slippage else 1.0 - slippage
  }

  /** A limit order is marketable when a buy's price is at least the stop
      price, or a sell's price is at most the stop price. */
  predicate Marketable(side: OrderSide, price: real, stopPrice: real)
  {
    (side == Buy && price >= stopPrice) || (side == Sell && price <= stopPrice)
  }

  /** Simulated resolution: a market order fills in full at the slipped
      price, a marketable limit order fills in full at its own price, and
      everything else stays pending with nothing filled. */
  function SimulatedFill(orderType: OrderType, side: OrderSide, quantity: real, price: Option<real>,
                         stopPrice: Option<real>, slippage: real): (r: Result<FillOutcome, ExecutionError>)
    ensures r.Ok? && r.value.status == Pending ==> r.value.filledQuantity == 0.0 && r.value.filledPrice == 0.0
    ensures r.Ok? ==> r.value.status in {Pending, Filled}
    ensures r.Ok? && r.value.status == Filled ==> r.value.filledQuantity == quantity
  {
    match orderType
    case Market =>
      if price.None? then Err(MissingPrice)
      else Ok(FillOutcome(Filled, quantity, price.value * SlippageFactor(side, slippage)))
    case Limit =>
      if price.None? || stopPrice.None? then Err(MissingPrice)
      else if Marketable(side, price.value, stopPrice.value) then Ok(FillOutcome(Filled, quantity, price.value))
      else Ok(FillOutcome(Pending, 0.0, 0.0))
    case _ => Ok(FillOutcome(Pending, 0.0, 0.0))
  }

  /** A market order with a price fills the whole quantity at
      price * (1 + slippage) for a buy and price * (1 - slippage) for a sell. */
  lemma MarketOrderFills(side: OrderSide, quantity: real, price: real, stopPrice: Option<real>, slippage: real)
    ensures side == Buy ==> SimulatedFill(Market, side, quantity, Some(price), stopPrice, slippage)
                            == Ok(FillOutcome(Filled, quantity, price * (1.0 + slippage)))
    ensures side == Sell ==> SimulatedFill(Market, side, quantity, Some(price), stopPrice, slippage)
                             == Ok(FillOutcome(Filled, quantity, price * (1.0 - slippage)))
  {
    var r := SimulatedFill(Market, side, quantity, Some(price), stopPrice, slippage);
    assert r.Ok?;
    assert r.value == FillOutcome(Filled, quantity, price * SlippageFactor(side, slippage));
    var expected := if side == Buy then price * (1.0 + slippage) else price * (1.0 - slippage);
    assert r.value.filledPrice == expected;
    assert r == Ok(FillOutcome(Filled, quantity, expected));
  }

  /** A limit order with both prices fills in full at its own price exactly
      when it is marketable, and otherwise stays pending. */
  lemma LimitOrderFillsIffMarketable(side: OrderSide, quantity: real, price: real, stopPrice: real, slippage: real)
    ensures var r := SimulatedFill(Limit, side, quantity, Some(price), Some(stopPrice), slippage);
            r.Ok?
            && (r.value.status == Filled <==> Marketable(side, price, stopPrice))
            && (r.value.status == Filled ==> r.value.filledPrice == price && r.value.filledQuantity == quantity)
            && (r.value.status != Filled ==> r.value.status == Pending)
  {
  }

  /** Stop-loss, take-profit and trailing-stop orders are never resolved in
      simulation: they stay pending with nothing filled, whatever their prices. */
  lemma ConditionalOrdersStayPending(orderType: OrderType, side: OrderSide, quantity: real,
                                     price: Option<real>, stopPrice: Option<real>, slippage: real)
    requires orderType in {StopLoss, TakeProfit, TrailingStop}
    ensures SimulatedFill(orderType, side, quantity, price, stopPrice, slippage) == Ok(FillOutcome(Pending, 0.0, 0.0))
  {
  }

  /** The position entry after a fill, before the zero-quantity check: a buy
      blends the average price weighted by quantity (0 when the new quantity
      is not positive); a sell books (fill price - average) * quantity as
      realized PnL and keeps the average price. */
  function UpdatedPosition(pos: Position, side: OrderSide, filledQuantity: real, filledPrice: real): (r: Position)
    ensures side == Buy ==> r.quantity == pos.quantity + filledQuantity && r.realizedPnl == pos.realizedPnl
    ensures side == Sell ==> r.quantity == pos.quantity - filledQuantity && r.averagePrice == pos.averagePrice
    ensures side == Buy && r.quantity <= 0.0 ==> r.averagePrice == 0.0
  {
    if side == Buy then
      var totalCost := pos.quantity * pos.averagePrice + filledQuantity * filledPrice;
      var newQuantity := pos.quantity + filledQuantity;
      Position(newQuantity, if newQuantity > 0.0 then totalCost / newQuantity else 0.0, pos.realizedPnl)
    else
      Position(pos.quantity - filledQuantity, pos.averagePrice,
               pos.realizedPnl + (filledPrice - pos.averagePrice) * filledQuantity)
  }

  /** The position table after a fill: the updated entry is stored, or the
      symbol is deleted when the quantity reaches zero (a KeyError when the
      table had no entry to delete). */
  function ApplyFill(positions: map<string, Position>, symbol: string, side: OrderSide,
                     filledQuantity: real, filledPrice: real): (r: Result<map<string, Position>, ExecutionError>)
    ensures r.Err? <==> symbol !in positions
                        && UpdatedPosition(EmptyPosition, side, filledQuantity, filledPrice).quantity == 0.0
    ensures r.Ok? ==> forall s :: s != symbol ==> (s in r.value <==> s in positions)
    ensures r.Ok? ==> forall s :: s != symbol && s in positions ==> r.value[s] == positions[s]
  {
    var pos := if symbol in positions then positions[symbol] else EmptyPosition;
    var updated := UpdatedPosition(pos, side, filledQuantity, filledPrice);
    if updated.quantity == 0.0 then
      if symbol in positions then Ok(positions - {symbol}) else Err(MissingPosition(symbol))
    else Ok(positions[symbol := updated])
  }

  /** The table never holds an entry with zero quantity. */
  ghost predicate NoZeroEntries(positions: map<string, Position>)
  {
    forall s :: s in positions ==> positions[s].quantity != 0.0
  }

  /** After a fill the symbol's entry is present exactly when its quantity is
      non-zero, so a table without zero entries keeps that property. */
  lemma ApplyFillKeepsNoZeroEntries(positions: map<string, Position>, symbol: string, side: OrderSide,
                                    filledQuantity: real, filledPrice: real)
    requires NoZeroEntries(positions)
    requires ApplyFill(positions, symbol, side, filledQuantity, filledPrice).Ok?
    ensures NoZeroEntries(ApplyFill(positions, symbol, side, filledQuantity, filledPrice).value)
    ensures var pos := if symbol in positions then positions[symbol] else EmptyPosition;
            var updated := UpdatedPosition(pos, side, filledQuantity, filledPrice);
            var ps := ApplyFill(positions, symbol, side, filledQuantity, filledPrice).value;
            (symbol in ps <==> updated.quantity != 0.0) && (symbol in ps ==> ps[symbol] == updated)
  {
  }

  /** A buy adds the filled quantity and stores the quantity-weighted average
      of the old average and the fill price. */
  lemma BuyFillAverages(pos: Position, filledQuantity: real, filledPrice: real)
    requires pos.quantity + filledQuantity > 0.0
    ensures var u := UpdatedPosition(pos, Buy, filledQuantity, filledPrice);
            u.quantity == pos.quantity + filledQuantity
            && u.averagePrice * u.quantity == pos.quantity * pos.averagePrice + filledQuantity * filledPrice
            && u.realizedPnl == pos.realizedPnl
  {
  }

  /** Adding to a long at a non-negative quantity keeps the new average
      between the old average and the fill price. */
  lemma BuyAverageBetween(pos: Position, filledQuantity: real, filledPrice: real)
    requires pos.quantity >= 0.0 && filledQuantity > 0.0
    ensures var u := UpdatedPosition(pos, Buy, filledQuantity, filledPrice);
            (pos.averagePrice <= filledPrice ==> pos.averagePrice <= u.averagePrice <= filledPrice)
            && (filledPrice <= pos.averagePrice ==> filledPrice <= u.averagePrice <= pos.averagePrice)
  {
    var q := pos.quantity + filledQuantity;
    var cost := pos.quantity * pos.averagePrice + filledQuantity * filledPrice;
    var lo := if pos.averagePrice <= filledPrice then pos.averagePrice else filledPrice;
    var hi := if pos.averagePrice <= filledPrice then filledPrice else pos.averagePrice;
    assert pos.quantity * lo <= pos.quantity * pos.averagePrice <= pos.quantity * hi;
    assert filledQuantity * lo <= filledQuantity * filledPrice <= filledQuantity * hi;
    assert q * lo <= cost <= q * hi;
    assert cost / q * q == cost;
    BetweenByDivision(lo, hi, cost, q);
  }

  /** If q*lo <= c <= q*hi with q > 0 then lo <= c/q <= hi. */
  lemma BetweenByDivision(lo: real, hi: real, c: real, q: real)
    requires q > 0.0 && q * lo <= c <= q * hi
    ensures lo <= c / q <= hi
  {
    assert c / q * q == c;
  }

  /** A sell reduces the quantity, keeps the average price and books
      (fill price - average) * filled quantity. */
  lemma SellFillRealizes(pos: Position, filledQuantity: real, filledPrice: real)
    ensures var u := UpdatedPosition(pos, Sell, filledQuantity, filledPrice);
            u.quantity == pos.quantity - filledQuantity && u.averagePrice == pos.averagePrice
            && u.realizedPnl == pos.realizedPnl + (filledPrice - pos.averagePrice) * filledQuantity
  {
  }

  /** A zero-quantity fill on a symbol without an entry raises on the delete. */
  lemma ZeroFillOnAbsentSymbolFails(positions: map<string, Position>, symbol: string, side: OrderSide,
                                    filledPrice: real)
    requires symbol !in positions
    ensures ApplyFill(positions, symbol, side, 0.0, filledPrice) == Err(MissingPosition(symbol))
  {
  }

  /** A sell on a symbol without an entry opens a negative quantity at
      average price 0 and books the whole notional fp * fq as realized PnL. */
  lemma SellFromFlatBooksNotional(positions: map<string, Position>, symbol: string,
                                  filledQuantity: real, filledPrice: real)
    requires symbol !in positions && filledQuantity != 0.0
    ensures ApplyFill(positions, symbol, Sell, filledQuantity, filledPrice)
            == Ok(positions[symbol := Position(-filledQuantity, 0.0, filledPrice * filledQuantity)])
  {
  }

  /** Buying q at p and then selling q at p2 deletes the entry, so the
      realized PnL (p2 - p) * q of the round trip is not kept in the table. */
  lemma RoundTripDropsEntry(positions: map<string, Position>, symbol: string, q: real, p: real, p2: real)
    requires symbol !in positions && q > 0.0
    ensures ApplyFill(positions, symbol, Buy, q, p) == Ok(positions[symbol := Position(q, p, 0.0)])
    ensures var after := positions[symbol := Position(q, p, 0.0)];
            ApplyFill(after, symbol, Sell, q, p2) == Ok(positions)
  {
    assert (0.0 * 0.0 + q * p) / q == p;
    assert UpdatedPosition(EmptyPosition, Buy, q, p) == Position(q, p, 0.0);
    var after := positions[symbol := Position(q, p, 0.0)];
    assert after - {symbol} == positions;
  }

  /** Value of one entry at the given prices: quantity * price, or nothing
      when the symbol has no price. A long at a non-negative price is never
      a liability. */
  function MarketValue(position: Position, prices: map<string, real>, symbol: string): (v: real)
    ensures symbol !in prices || position.quantity == 0.0 ==> v == 0.0
    ensures position.quantity >= 0.0 && symbol in prices && prices[symbol] >= 0.0 ==> v >= 0.0
  {
    if symbol in prices then position.quantity * prices[symbol] else 0.0
  }

  /** Sum of the entries' market values (signed: shorts subtract). A book of
      longs at non-negative prices is worth at least nothing. */
  ghost function PortfolioValue(positions: map<string, Position>, prices: map<string, real>): (v: real)
    ensures (forall s :: s in positions ==> positions[s].quantity >= 0.0)
            && (forall s :: s in prices ==> prices[s] >= 0.0)
            ==> v >= 0.0
    decreases |positions|
  {
    if positions == map[] then 0.0
    else
      var s :| s in positions;
      MarketValue(positions[s], prices, s) + PortfolioValue(positions - {s}, prices)
  }

  /** The sum does not depend on which entry is taken first. */
  lemma {:induction false} PortfolioValueSplit(positions: map<string, Position>, prices: map<string, real>, symbol: string)
    requires symbol in positions
    ensures PortfolioValue(positions, prices)
            == MarketValue(positions[symbol], prices, symbol) + PortfolioValue(positions - {symbol}, prices)
    decreases |positions|
  {
    var s :| s in positions && PortfolioValue(positions, prices)
                               == MarketValue(positions[s], prices, s) + PortfolioValue(positions - {s}, prices);
    if s != symbol {
      var rest := positions - {s};
      var rest2 := positions - {symbol};
      assert rest[symbol] == positions[symbol] && rest2[s] == positions[s];
      PortfolioValueSplit(rest, prices, symbol);
      PortfolioValueSplit(rest2, prices, s);
      assert rest - {symbol} == rest2 - {s};
    }
  }

  /** The empty table is worth nothing, and with no prices at all every
      table is worth nothing. */
  lemma {:induction false} UnpricedPortfolioIsWorthless(positions: map<string, Position>)
    ensures PortfolioValue(positions, map[]) == 0.0
    decreases |positions|
  {
    if positions != map[] {
      var s :| s in positions && PortfolioValue(positions, map[])
                                 == MarketValue(positions[s], map[], s) + PortfolioValue(positions - {s}, map[]);
      UnpricedPortfolioIsWorthless(positions - {s});
      assert MarketValue(positions[s], map[], s) == 0.0;
    }
  }

  /** An order. Its request fields are fixed at creation; status and fill
      fields change when it is resolved or cancelled. */
  class Order {
    const symbol: string
    const orderType: OrderType
    const side: OrderSide
    const quantity: real
    const price: Option<real>
    const stopPrice: Option<real>
    const trailingPercent: Option<real>
    const timestamp: int
    var status: OrderStatus
    var filledQuantity: real
    var filledPrice: real

    /** A new order is pending with nothing filled. */
    constructor (symbol: string, orderType: OrderType, side: OrderSide, quantity: real, price: Option<real>,
                 stopPrice: Option<real>, trailingPercent: Option<real>, timestamp: int)
      ensures this.symbol == symbol && this.orderType == orderType && this.side == side
      ensures this.quantity == quantity && this.price == price && this.stopPrice == stopPrice
      ensures this.trailingPercent == trailingPercent && this.timestamp == timestamp
      ensures status == Pending && filledQuantity == 0.0 && filledPrice == 0.0
    {
      this.symbol := symbol;
      this.orderType := orderType;
      this.side := side;
      this.quantity := quantity;
      this.price := price;
      this.stopPrice := stopPrice;
      this.trailingPercent := trailingPercent;
      this.timestamp := timestamp;
      status := Pending;
      filledQuantity := 0.0;
      filledPrice := 0.0;
    }
  }

  /** The ledger entry an order's fill produces, with commission
      filled quantity * filled price * rate. */
  function TradeOf(o: Order, commission: real): (t: Trade)
    reads o
    ensures t.commission == o.filledQuantity * o.filledPrice * commission
    ensures t.quantity == o.filledQuantity && t.price == o.filledPrice && t.symbol == o.symbol && t.side == o.side
  {
    Trade(o.timestamp, o.symbol, o.orderType, o.side, o.filledQuantity, o.filledPrice,
          o.filledQuantity * o.filledPrice * commission)
  }

  /** The pending orders among `os`, keeping only those on `symbol` when one
      is given. */
  function OpenOrders(os: seq<Order>, symbol: Option<string>): (r: seq<Order>)
    reads os
    ensures |r| <= |os|
    ensures forall o :: o in r ==> o in os && o.status == Pending && (symbol.Some? ==> o.symbol == symbol.value)
    ensures forall o :: o in os && o.status == Pending && (symbol.Some? ==> o.symbol == symbol.value) ==> o in r
    decreases |os|
  {
    if os == [] then []
    else
      var rest := OpenOrders(os[..|os| - 1], symbol);
      var last := os[|os| - 1];
      assert os == os[..|os| - 1] + [last];
      if last.status == Pending && (symbol.Some? ==> last.symbol == symbol.value) then rest + [last] else rest
  }

  /** The listing is a filter that keeps the orders' sequence: listing a
      concatenation lists each part and concatenates, so every kept order
      appears once per occurrence and in its original position relative to
      the others. */
  lemma {:induction false} OpenOrdersConcat(os1: seq<Order>, os2: seq<Order>, symbol: Option<string>)
    ensures OpenOrders(os1 + os2, symbol) == OpenOrders(os1, symbol) + OpenOrders(os2, symbol)
    decreases |os2|
  {
    if os2 == [] {
      assert os1 + os2 == os1;
    } else {
      var init, last := os2[..|os2| - 1], os2[|os2| - 1];
      OpenOrdersConcat(os1, init, symbol);
      assert (os1 + os2)[..|os1 + os2| - 1] == os1 + init;
      assert (os1 + os2)[|os1 + os2| - 1] == last;
    }
  }

  /** The handler: commission and slippage rates, positions, orders, trades. */
  class ExecutionHandler {
    const commission: real
    const slippage: real
    var positions: map<string, Position>
    var orders: seq<Order>
    var trades: seq<Trade>

    ghost predicate Valid()
      reads this
    {
      NoZeroEntries(positions)
    }

    constructor (commission: real, slippage: real)
      ensures Valid()
      ensures this.commission == commission && this.slippage == slippage
      ensures positions == map[] && orders == [] && trades == []
    {
      this.commission := commission;
      this.slippage := slippage;
      positions := map[];
      orders := [];
      trades := [];
    }

    /** Create an order, resolve it on the simulated path and append it to
        `orders`. If resolution raises, the order is not recorded and the
        positions and ledger are as before. */
    method CreateOrder(symbol: string, orderType: OrderType, side: OrderSide, quantity: real,
                       price: Option<real>, stopPrice: Option<real>, trailingPercent: Option<real>,
                       timestamp: int) returns (r: Result<Order, ExecutionError>)
      requires Valid()
      modifies this
      ensures Valid()
      ensures var f := SimulatedFill(orderType, side, quantity, price, stopPrice, slippage);
              if f.Err? then r == Err(f.error) && positions == old(positions) && trades == old(trades)
                             && orders == old(orders)
              else if f.value.status == Filled
                      && ApplyFill(old(positions), symbol, side, f.value.filledQuantity, f.value.filledPrice).Err? then
                r == Err(ApplyFill(old(positions), symbol, side, f.value.filledQuantity, f.value.filledPrice).error)
                && positions == old(positions) && trades == old(trades) && orders == old(orders)
              else
                r.Ok? && fresh(r.value) && orders == old(orders) + [r.value]
                && r.value.symbol == symbol && r.value.orderType == orderType && r.value.side == side
                && r.value.quantity == quantity && r.value.price == price && r.value.stopPrice == stopPrice
                && r.value.trailingPercent == trailingPercent && r.value.timestamp == timestamp
                && r.value.status == f.value.status
                && r.value.filledQuantity == f.value.filledQuantity
                && r.value.filledPrice == f.value.filledPrice
                && (f.value.status == Filled ==>
                      positions == ApplyFill(old(positions), symbol, side, f.value.filledQuantity,
                                             f.value.filledPrice).value
                      && trades == old(trades) + [TradeOf(r.value, commission)])
                && (f.value.status != Filled ==> positions == old(positions) && trades == old(trades))
    {
      var order := new Order(symbol, orderType, side, quantity, price, stopPrice, trailingPercent, timestamp);
      var err := ExecuteSimulatedOrder(order);
      if err.Some? {
        return Err(err.value);
      }
      orders := orders + [order];
      r := Ok(order);
    }

    /** Resolve a newly created `order` on the simulated path, then update
        positions and record the trade when it filled. */
    method ExecuteSimulatedOrder(order: Order) returns (err: Option<ExecutionError>)
      requires Valid()
      requires order.status == Pending && order.filledQuantity == 0.0 && order.filledPrice == 0.0
      modifies this`positions, this`trades, order`status, order`filledQuantity, order`filledPrice
      ensures Valid()
      ensures var f := SimulatedFill(order.orderType, order.side, order.quantity, order.price, order.stopPrice,
                                     slippage);
              if f.Err? then
                err == Some(f.error) && positions == old(positions) && trades == old(trades)
                && unchanged(order)
              else
                order.status == f.value.status && order.filledQuantity == f.value.filledQuantity
                && order.filledPrice == f.value.filledPrice
                && if order.status != Filled then
                     err.None? && positions == old(positions) && trades == old(trades)
                   else
                     var applied := ApplyFill(old(positions), order.symbol, order.side, order.filledQuantity,
                                              order.filledPrice);
                     if applied.Err? then err == Some(applied.error) && positions == old(positions)
                                          && trades == old(trades)
                     else err.None? && positions == applied.value
                          && trades == old(trades) + [TradeOf(order, commission)]
    {
      var factor := SlippageFactor(order.side, slippage);
      match order.orderType {
        case Market =>
          if order.price.None? {
            return Some(MissingPrice);
          }
          order.filledPrice := order.price.value * factor;
          order.status := Filled;
          order.filledQuantity := order.quantity;
        case Limit =>
          if order.price.None? || order.stopPrice.None? {
            return Some(MissingPrice);
          }
          if Marketable(order.side, order.price.value, order.stopPrice.value) {
            order.filledPrice := order.price.value;
            order.status := Filled;
            order.filledQuantity := order.quantity;
          } else {
            order.status := Pending;
          }
        case _ =>
      }
      err := UpdatePositions(order);
      if err.None? {
        RecordTrade(order);
      }
    }

    /** Apply a filled order to the position table; other orders change nothing. */
    method UpdatePositions(order: Order) returns (err: Option<ExecutionError>)
      requires Valid()
      modifies this`positions
      ensures Valid()
      ensures order.status != Filled ==> err.None? && positions == old(positions)
      ensures order.status == Filled ==>
                var applied := ApplyFill(old(positions), order.symbol, order.side, order.filledQuantity,
                                         order.filledPrice);
                if applied.Err? then err == Some(applied.error) && positions == old(positions)
                else err.None? && positions == applied.value
    {
      if order.status != Filled {
        return None;
      }
      var position := if order.symbol in positions then positions[order.symbol] else EmptyPosition;
      ghost var before := position;
      if order.side == Buy {
        var totalCost := position.quantity * position.averagePrice + order.filledQuantity * order.filledPrice;
        var newQuantity := position.quantity + order.filledQuantity;
        var average := if newQuantity > 0.0 then totalCost / newQuantity else 0.0;
        position := Position(newQuantity, average, position.realizedPnl);
      } else {
        var pnl := (order.filledPrice - position.averagePrice) * order.filledQuantity;
        position := Position(position.quantity - order.filledQuantity, position.averagePrice,
                             position.realizedPnl + pnl);
      }
      assert position == UpdatedPosition(before, order.side, order.filledQuantity, order.filledPrice);
      if position.quantity == 0.0 {
        if order.symbol !in positions {
          return Some(MissingPosition(order.symbol));
        }
        positions := positions - {order.symbol};
      } else {
        positions := positions[order.symbol := position];
      }
      err := None;
    }

    /** Append the ledger entry of a filled order; other orders change nothing. */
    method RecordTrade(order: Order)
      modifies this`trades
      ensures trades == if order.status == Filled then old(trades) + [TradeOf(order, commission)] else old(trades)
    {
      if order.status == Filled {
        trades := trades + [TradeOf(order, commission)];
      }
    }

    /** The symbol's entry, or the empty position. Under the table invariant,
        a zero quantity means exactly that there is no entry. */
    function GetPosition(symbol: string): (p: Position)
      reads this
      ensures symbol in positions ==> p == positions[symbol]
      ensures symbol !in positions ==> p == EmptyPosition
      ensures Valid() ==> (p.quantity == 0.0 <==> symbol !in positions)
    {
      if symbol in positions then positions[symbol] else EmptyPosition
    }

    /** Pending orders, restricted to `symbol` when a non-empty one is given
        (an empty symbol, like no symbol, does not filter). */
    function GetOpenOrders(symbol: Option<string>): (r: seq<Order>)
      reads this, orders
      ensures forall o :: o in r ==> o in orders && o.status == Pending
                                     && (symbol.Some? && symbol.value != "" ==> o.symbol == symbol.value)
      ensures forall o :: (o in orders && o.status == Pending
                           && (symbol.Some? && symbol.value != "" ==> o.symbol == symbol.value)) ==> o in r
    {
      OpenOrders(orders, if symbol.Some? && symbol.value != "" then symbol else None)
    }

    /** Cancel a pending order; any other order is left as it is and the call fails. */
    method CancelOrder(order: Order) returns (ok: bool)
      modifies order`status
      ensures ok <==> old(order.status) == Pending
      ensures order.status == if ok then Cancelled else old(order.status)
    {
      if order.status != Pending {
        return false;
      }
      order.status := Cancelled;
      ok := true;
    }

    /** The ledger in fill order. */
    function GetTradeHistory(): (r: seq<Trade>)
      reads this
      ensures r == trades
    {
      trades
    }

    /** Sum of quantity * price over the entries whose symbol has a price. */
    method CalculatePortfolioValue(currentPrices: map<string, real>) returns (value: real)
      ensures value == PortfolioValue(positions, currentPrices)
    {
      value := 0.0;
      var rest := positions;
      while rest != map[]
        invariant forall s :: s in rest ==> s in positions && rest[s] == positions[s]
        invariant value + PortfolioValue(rest, currentPrices) == PortfolioValue(positions, currentPrices)
        decreases |rest|
      {
        var symbol :| symbol in rest;
        PortfolioValueSplit(rest, currentPrices, symbol);
        if symbol in currentPrices {
          value := value + rest[symbol].quantity * currentPrices[symbol];
        }
        rest := rest - {symbol};
      }
    }
  }
}

=== FILE: advanced_risk.dfy ===
/** The advanced risk manager: volatility- and correlation-scaled sizing, the
    trailing stop, the rebalance threshold rule and the dispatch of the
    portfolio optimizer to one of its three objectives. The numerical solver
    itself is an input: the model states what it is asked to solve. */
module AdvancedRisk {
  import opened Common

  datatype RiskError = ZeroDivision

  /** Constructor parameters; `varConfidence` is only read by the value-at-risk
      estimate, which is not part of this model. */
  datatype RiskManager = RiskManager(
    maxPositionSize: real,
    stopLoss: real,
    takeProfit: real,
    maxDrawdown: real,
    varConfidence: real)

  const DefaultRiskManager: RiskManager := RiskManager(0.1, 0.02, 0.05, 0.25, 0.95)

  /** Default ATR multiplier of the trailing stop. */
  const DefaultAtrMultiplier: real := 2.0

  /** Risk-free rate subtracted in the reported Sharpe ratio. */
  const RiskFreeRate: real := 0.02

  function Abs(x: real): real
  {
    if x < 0.0 then -x else x
  }

  /** Python's three-argument `max`: the first argument that is not exceeded. */
  function Max3(a: real, b: real, c: real): (m: real)
    ensures m >= a && m >= b && m >= c
    ensures m == a || m == b || m == c
  {
    var ab := if b > a then b else a;
    if c > ab then c else ab
  }

  /** Correlation multiplier: 1 - |correlation| when a correlation is given, else 1. */
  function CorrelationAdjustment(correlation: Option<real>): (f: real)
    ensures correlation.None? ==> f == 1.0
    ensures correlation.Some? && -1.0 <= correlation.value <= 1.0 ==> 0.0 <= f <= 1.0
  {
    if correlation.Some? then 1.0 - Abs(correlation.value) else 1.0
  }

  /** The largest position value allowed: portfolio value * maxPositionSize. */
  function MaxPositionValue(rm: RiskManager, portfolioValue: real): real
  {
    portfolioValue * rm.maxPositionSize
  }

  /** Quantity to trade: min(cap * 1/(1 + volatility) * corrAdj / price, cap / price)
      with cap = portfolio value * maxPositionSize. A volatility of -1 or a
      zero price is a division error. */
  function PositionSize(rm: RiskManager, portfolioValue: real, price: real, volatility: real,
                        correlation: Option<real>): (r: Result<real, RiskError>)
    ensures r.Err? <==> 1.0 + volatility == 0.0 || price == 0.0
    ensures r.Ok? ==> r.value <= MaxPositionValue(rm, portfolioValue) / price
  {
    SizeFromCap(MaxPositionValue(rm, portfolioValue), price, volatility, CorrelationAdjustment(correlation))
  }

  /** The sizing rule once the maximum position value `cap` is known. */
  function SizeFromCap(cap: real, price: real, volatility: real, corrAdj: real): (r: Result<real, RiskError>)
    ensures r.Err? <==> 1.0 + volatility == 0.0 || price == 0.0
    ensures r.Ok? ==> r.value <= cap / price
  {
    if 1.0 + volatility == 0.0 then
      Err(ZeroDivision)
    else
      var volAdjustment := 1.0 / (1.0 + volatility);
      var adjusted := cap * volAdjustment * corrAdj;
      if price == 0.0 then Err(ZeroDivision)
      else Ok(Min(adjusted / price, cap / price))
  }

  /** Multiplying by a factor in [0, 1] cannot increase a non-negative amount. */
  lemma ScaleDown(a: real, f: real)
    requires a >= 0.0 && 0.0 <= f <= 1.0
    ensures 0.0 <= a * f <= a
  {
  }

  /** Raising any argument never lowers the maximum. */
  lemma Max3Monotone(a1: real, b1: real, c1: real, a2: real, b2: real, c2: real)
    requires a1 <= a2 && b1 <= b2 && c1 <= c2
    ensures Max3(a1, b1, c1) <= Max3(a2, b2, c2)
  {
  }

  /** Multiplying both sides by a non-negative factor keeps the order. */
  lemma MulMonotone(a: real, b: real, f: real)
    requires a <= b && f >= 0.0
    ensures a * f <= b * f
  {
    assert b * f - a * f == (b - a) * f;
  }

  /** With a valid price, cap, volatility and correlation the size lies in [0, cap / price]. */
  lemma SizeBounds(rm: RiskManager, portfolioValue: real, price: real, volatility: real,
                   correlation: Option<real>)
    requires price > 0.0 && MaxPositionValue(rm, portfolioValue) >= 0.0 && volatility >= 0.0
    requires correlation.Some? ==> -1.0 <= correlation.value <= 1.0
    ensures PositionSize(rm, portfolioValue, price, volatility, correlation).Ok?
    ensures 0.0 <= PositionSize(rm, portfolioValue, price, volatility, correlation).value
                <= MaxPositionValue(rm, portfolioValue) / price
  {
    var cap := MaxPositionValue(rm, portfolioValue);
    var c := CorrelationAdjustment(correlation);
    CapSizeBounds(cap, price, volatility, c);
  }

  /** The size in closed form, with its first quotient named. */
  lemma SizeIs(cap: real, price: real, volatility: real, c: real) returns (x: real)
    requires price > 0.0 && volatility >= 0.0
    ensures x == cap * (1.0 / (1.0 + volatility)) * c / price
    ensures SizeFromCap(cap, price, volatility, c) == Ok(Min(x, cap / price))
  {
    x := cap * (1.0 / (1.0 + volatility)) * c / price;
  }

  lemma CapSizeBounds(cap: real, price: real, volatility: real, c: real)
    requires price > 0.0 && cap >= 0.0 && volatility >= 0.0 && 0.0 <= c <= 1.0
    ensures SizeFromCap(cap, price, volatility, c).Ok?
    ensures 0.0 <= SizeFromCap(cap, price, volatility, c).value
  {
    var x := SizeIs(cap, price, volatility, c);
    var v := 1.0 / (1.0 + volatility);
    DivAntitone(1.0, 1.0, 1.0 + volatility);
    ScaleDown(cap, v);
    ScaleDown(cap * v, c);
    QuotientMonotone(0.0, cap * v * c, price);
    QuotientMonotone(0.0, cap, price);
  }

  /** Scaling the volatility adjustment down scales the adjusted notional down. */
  lemma AdjustedMonotone(cap: real, c: real, q1: real, q2: real)
    requires cap >= 0.0 && c >= 0.0 && q2 <= q1
    ensures cap * q2 * c <= cap * q1 * c
  {
    MulMonotone(0.0, cap, c);
    MulMonotone(q2, q1, cap * c);
    assert cap * q1 * c == (cap * c) * q1;
    assert cap * q2 * c == (cap * c) * q2;
  }

  /** Dividing by a positive price keeps the order. */
  lemma QuotientMonotone(a: real, b: real, price: real)
    requires a <= b && price > 0.0
    ensures a / price <= b / price
  {
    MulMonotone(a, b, 1.0 / price);
    assert a / price == a * (1.0 / price);
    assert b / price == b * (1.0 / price);
  }

  /** Size is non-increasing in a non-negative volatility. */
  lemma SizeNonIncreasingInVolatility(rm: RiskManager, portfolioValue: real, price: real,
                                      v1: real, v2: real, correlation: Option<real>)
    requires price > 0.0 && MaxPositionValue(rm, portfolioValue) >= 0.0 && 0.0 <= v1 <= v2
    requires correlation.Some? ==> -1.0 <= correlation.value <= 1.0
    ensures PositionSize(rm, portfolioValue, price, v1, correlation).Ok?
    ensures PositionSize(rm, portfolioValue, price, v2, correlation).Ok?
    ensures PositionSize(rm, portfolioValue, price, v2, correlation).value
            <= PositionSize(rm, portfolioValue, price, v1, correlation).value
  {
    var cap := MaxPositionValue(rm, portfolioValue);
    var c := CorrelationAdjustment(correlation);
    CapSizeAntitone(cap, price, v1, v2, c);
  }

  lemma CapSizeAntitone(cap: real, price: real, v1: real, v2: real, c: real)
    requires price > 0.0 && cap >= 0.0 && 0.0 <= v1 <= v2 && c >= 0.0
    ensures SizeFromCap(cap, price, v1, c).Ok? && SizeFromCap(cap, price, v2, c).Ok?
    ensures SizeFromCap(cap, price, v2, c).value <= SizeFromCap(cap, price, v1, c).value
  {
    var x1 := SizeIs(cap, price, v1, c);
    var x2 := SizeIs(cap, price, v2, c);
    DivAntitone(1.0, 1.0 + v1, 1.0 + v2);
    AdjustedMonotone(cap, c, 1.0 / (1.0 + v1), 1.0 / (1.0 + v2));
    QuotientMonotone(cap * (1.0 / (1.0 + v2)) * c, cap * (1.0 / (1.0 + v1)) * c, price);
    assert x2 <= x1;
  }

  /** A perfectly correlated or anti-correlated exposure gets size zero. */
  lemma FullCorrelationGivesZero(rm: RiskManager, portfolioValue: real, price: real, volatility: real,
                                 correlation: real)
    requires price > 0.0 && MaxPositionValue(rm, portfolioValue) >= 0.0 && volatility >= 0.0
    requires correlation == 1.0 || correlation == -1.0
    ensures PositionSize(rm, portfolioValue, price, volatility, Some(correlation)) == Ok(0.0)
  {
    assert CorrelationAdjustment(Some(correlation)) == 0.0;
    assert MaxPositionValue(rm, portfolioValue) / price >= 0.0;
  }

  /** The fixed stop-loss level below a reference price. */
  function StopBelow(rm: RiskManager, price: real): real
  {
    price * (1.0 - rm.stopLoss)
  }

  /** The trailing stop: the highest of the ATR stop below the current price,
      the fixed stop below entry and the stop below the running high. */
  function TrailingStop(rm: RiskManager, entryPrice: real, currentPrice: real, highPrice: real,
                        atr: real, multiplier: real): (stop: real)
    ensures stop >= currentPrice - atr * multiplier
    ensures stop >= StopBelow(rm, entryPrice)
    ensures stop >= StopBelow(rm, highPrice)
  {
    var atrStop := currentPrice - atr * multiplier;
    var initialStop := StopBelow(rm, entryPrice);
    var trailing := StopBelow(rm, highPrice);
    Max3(atrStop, initialStop, trailing)
  }

  /** The stop equals one of its three floors, so it is the tightest of them. */
  lemma TrailingStopIsOneOfFloors(rm: RiskManager, entryPrice: real, currentPrice: real, highPrice: real,
                                  atr: real, multiplier: real)
    ensures var stop := TrailingStop(rm, entryPrice, currentPrice, highPrice, atr, multiplier);
            stop == currentPrice - atr * multiplier
            || stop == StopBelow(rm, entryPrice)
            || stop == StopBelow(rm, highPrice)
  {
  }

  /** A higher running high never lowers the stop (for a stop-loss fraction of at most 1). */
  lemma TrailingStopMonotoneInHigh(rm: RiskManager, entryPrice: real, currentPrice: real,
                                   h1: real, h2: real, atr: real, multiplier: real)
    requires rm.stopLoss <= 1.0 && h1 <= h2
    ensures TrailingStop(rm, entryPrice, currentPrice, h1, atr, multiplier)
            <= TrailingStop(rm, entryPrice, currentPrice, h2, atr, multiplier)
  {
    var atrStop := currentPrice - atr * multiplier;
    var initialStop := StopBelow(rm, entryPrice);
    MulMonotone(h1, h2, 1.0 - rm.stopLoss);
    assert StopBelow(rm, h1) <= StopBelow(rm, h2);
    Max3Monotone(atrStop, initialStop, StopBelow(rm, h1), atrStop, initialStop, StopBelow(rm, h2));
  }

  /** A higher current price never lowers the stop. */
  lemma TrailingStopMonotoneInCurrent(rm: RiskManager, entryPrice: real, c1: real, c2: real,
                                      highPrice: real, atr: real, multiplier: real)
    requires c1 <= c2
    ensures TrailingStop(rm, entryPrice, c1, highPrice, atr, multiplier)
            <= TrailingStop(rm, entryPrice, c2, highPrice, atr, multiplier)
  {
    var initialStop := StopBelow(rm, entryPrice);
    var trailing := StopBelow(rm, highPrice);
    Max3Monotone(c1 - atr * multiplier, initialStop, trailing, c2 - atr * multiplier, initialStop, trailing);
  }

  /** With the constructor's defaults (a 2% stop) and the default multiplier
      2: entry 100, current 105, high 110 and ATR 1.5 give the stop below the
      high, 107.8, over the ATR stop 102 and the initial stop 98; after a jump
      to 120 with ATR 1 the ATR stop 118 binds over 117.6. */
  lemma DefaultTrailingStops()
    ensures TrailingStop(DefaultRiskManager, 100.0, 105.0, 110.0, 1.5, DefaultAtrMultiplier) == 107.8
    ensures TrailingStop(DefaultRiskManager, 100.0, 120.0, 120.0, 1.0, DefaultAtrMultiplier) == 118.0
  {
  }

  // ---------------------------------------------------------------------
  // Portfolio optimizer dispatch

  /** The three objectives the optimizer can minimise. */
  datatype Objective = MaxSharpe | MinVariance | MaxDiversification

  /** What is handed to the constrained solver: the objective, the starting
      point, the per-weight bounds [lower, upper] and the constraint that the
      weights sum to one (always present). */
  datatype SolveRequest = SolveRequest(objective: Objective, start: seq<real>, lower: real, upper: real)

  datatype OptimizeError = UnknownMethod(name: string) | EmptyUniverse

  /** Objective selected by a method name, if any. */
  function MethodObjective(name: string): (o: Option<Objective>)
    ensures o.Some? <==> name in {"sharpe", "min_var", "max_div"}
  {
    if name == "sharpe" then Some(MaxSharpe)
    else if name == "min_var" then Some(MinVariance)
    else if name == "max_div" then Some(MaxDiversification)
    else None
  }

  /** Equal weights 1/n for n assets. */
  function EqualWeights(n: nat): (w: seq<real>)
    requires n > 0
    ensures |w| == n
  {
    seq(n, _ => 1.0 / n as real)
  }

  /** Build the solver request for method `name` over `nAssets` assets. An unknown
      method is a ValueError; no assets makes the starting point 1/0. */
  function OptimizePortfolio(name: string, nAssets: nat): (r: Result<SolveRequest, OptimizeError>)
    ensures r.Err? <==> MethodObjective(name).None? || nAssets == 0
    ensures MethodObjective(name).None? ==> r == Err(UnknownMethod(name))
    ensures r.Ok? ==> r.value.objective == MethodObjective(name).value
                      && r.value.lower == 0.0 && r.value.upper == 1.0
                      && r.value.start == EqualWeights(nAssets)
  {
    match MethodObjective(name)
    case None => Err(UnknownMethod(name))
    case Some(objective) =>
      if nAssets == 0 then Err(EmptyUniverse)
      else Ok(SolveRequest(objective, EqualWeights(nAssets), 0.0, 1.0))
  }

  /** The solver's starting point is feasible: every weight in [0, 1] and the
      weights sum to one. */
  lemma {:induction false} StartIsFeasible(name: string, nAssets: nat)
    requires OptimizePortfolio(name, nAssets).Ok?
    ensures var req := OptimizePortfolio(name, nAssets).value;
            Sum(req.start) == 1.0
            && forall i :: 0 <= i < |req.start| ==> req.lower <= req.start[i] <= req.upper
  {
    var w := EqualWeights(nAssets);
    SumConstant(w, 1.0 / nAssets as real);
    assert nAssets as real * (1.0 / nAssets as real) == 1.0;
    forall i | 0 <= i < |w|
      ensures 0.0 <= w[i] <= 1.0
    {
      DivAntitone(1.0, 1.0, nAssets as real);
    }
  }

  // ---------------------------------------------------------------------
  // Rebalance rule

  /** The report of `update_portfolio_risk`. `sharpeRatio` is None where the
      source divides by a zero volatility (a non-finite float). */
  datatype RiskReport = RiskReport(
    rebalanceNeeded: bool,
    optimalWeights: Option<seq<real>>,
    currentRisk: real,
    sharpeRatio: Option<real>)

  /** Rebalance rule over a portfolio return and volatility already computed
      from the positions and the returns matrix. Only when the volatility
      exceeds `maxDrawdown` is the optimizer invoked (with its default method,
      'sharpe'); `solve` is the external solver. */
  function UpdatePortfolioRisk(rm: RiskManager, portfolioReturn: real, portfolioVolatility: real,
                               nAssets: nat, solve: SolveRequest -> seq<real>): (r: Result<RiskReport, OptimizeError>)
    ensures r.Err? <==> portfolioVolatility > rm.maxDrawdown && nAssets == 0
    ensures r.Ok? ==> r.value.rebalanceNeeded == (portfolioVolatility > rm.maxDrawdown)
    ensures r.Ok? ==> (r.value.optimalWeights.Some? <==> r.value.rebalanceNeeded)
    ensures r.Ok? ==> r.value.currentRisk == portfolioVolatility
    ensures r.Ok? ==> (r.value.sharpeRatio.None? <==> portfolioVolatility == 0.0)
  {
    var sharpe := if portfolioVolatility == 0.0 then None
                  else Some((portfolioReturn - RiskFreeRate) / portfolioVolatility);
    if portfolioVolatility > rm.maxDrawdown then
      match OptimizePortfolio("sharpe", nAssets)
      case Err(e) => Err(e)
      case Ok(request) => Ok(RiskReport(true, Some(solve(request)), portfolioVolatility, sharpe))
    else
      Ok(RiskReport(false, None, portfolioVolatility, sharpe))
  }

  /** When a rebalance is suggested, the weights are the solver's answer to a
      max-Sharpe request started from equal weights. */
  lemma RebalanceAsksForMaxSharpe(rm: RiskManager, portfolioReturn: real, portfolioVolatility: real,
                                  nAssets: nat, solve: SolveRequest -> seq<real>)
    requires portfolioVolatility > rm.maxDrawdown && nAssets > 0
    ensures UpdatePortfolioRisk(rm, portfolioReturn, portfolioVolatility, nAssets, solve).Ok?
    ensures UpdatePortfolioRisk(rm, portfolioReturn, portfolioVolatility, nAssets, solve).value.optimalWeights
            == Some(solve(SolveRequest(MaxSharpe, EqualWeights(nAssets), 0.0, 1.0)))
  {
  }
}

=== FILE: advanced_strategy.dfy ===
/** The ensemble strategy (a weighted vote over component strategies'
    signals, thresholded at +-0.5), its weight normalisation, and the
    machine-learning strategy's mapping from predicted probabilities to
    signals. Component strategies and the classifier are inputs: their
    signals and probabilities are given. */
module Ensemble {
  import opened Common

  /** Python's ZeroDivisionError from `1/len(strategies)` with no strategies. */
  datatype StrategyError = NoStrategies

  /** Default weights: 1/n for each of n strategies, or the given list. */
  function InitialWeights(n: nat, given: Option<seq<real>>): (r: Result<seq<real>, StrategyError>)
    ensures given.Some? ==> r == Ok(given.value)
    ensures given.None? ==> (r.Err? <==> n == 0)
    ensures given.None? && r.Ok? ==> |r.value| == n && forall k :: 0 <= k < n ==> r.value[k] == 1.0 / n as real
  {
    if given.Some? then Ok(given.value)
    else if n == 0 then Err(NoStrategies)
    else Ok(seq(n, k => 1.0 / n as real))
  }

  /** The default weights of a non-empty ensemble sum to one. */
  lemma DefaultWeightsSumToOne(n: nat)
    requires n > 0
    ensures InitialWeights(n, None).Ok? && Sum(InitialWeights(n, None).value) == 1.0
  {
    var w := InitialWeights(n, None).value;
    SumConstant(w, 1.0 / n as real);
    assert n as real * (1.0 / n as real) == 1.0;
  }

  /** The ensemble's vote: 1 above 0.5, -1 below -0.5, otherwise 0. */
  function Vote(score: real): (s: int)
    ensures s in {-1, 0, 1}
    ensures s == 1 <==> score > 0.5
    ensures s == -1 <==> score < -0.5
  {
    if score > 0.5 then 1 else if score < -0.5 then -1 else 0
  }

  /** A score of exactly +-0.5 is not enough to trade. */
  lemma VoteBoundaries()
    ensures Vote(0.5) == 0 && Vote(-0.5) == 0 && Vote(0.51) == 1 && Vote(-0.51) == -1
  {
  }

  /** Every component signal series covers the `rows` rows of the frame. */
  predicate Aligned(components: seq<seq<int>>, rows: nat)
  {
    forall k :: 0 <= k < |components| ==> |components[k]| == rows
  }

  /** One strategy's contribution: its signal times its weight, never
      larger in size than a non-negative weight for a signal in [-1, 1]. */
  function Weighted(signal: int, weight: real): (x: real)
    ensures weight >= 0.0 && -1 <= signal <= 1 ==> -weight <= x <= weight
  {
    signal as real * weight
  }

  /** Weighted score of row t over the first k (strategy, weight) pairs. */
  function ScoreUpTo(components: seq<seq<int>>, weights: seq<real>, k: nat, t: nat): real
    requires k <= |components| && k <= |weights|
    requires forall j :: 0 <= j < k ==> t < |components[j]|
    decreases k
  {
    if k == 0 then 0.0
    else ScoreUpTo(components, weights, k - 1, t) + Weighted(components[k - 1][t], weights[k - 1])
  }

  /** Over the first k pairs, a row where every component is flat scores 0,
      and with non-negative weights and signals in [-1, 1] the score lies
      within the total weight. */
  lemma {:induction false} ScoreUpToBounds(components: seq<seq<int>>, weights: seq<real>, k: nat, t: nat)
    requires k <= |components| && k <= |weights|
    requires forall j :: 0 <= j < k ==> t < |components[j]|
    ensures (forall j :: 0 <= j < k ==> components[j][t] == 0) ==> ScoreUpTo(components, weights, k, t) == 0.0
    ensures (forall j :: 0 <= j < k ==> weights[j] >= 0.0 && -1 <= components[j][t] <= 1)
            ==> -Sum(weights[..k]) <= ScoreUpTo(components, weights, k, t) <= Sum(weights[..k])
    decreases k
  {
    if k > 0 {
      ScoreUpToBounds(components, weights, k - 1, t);
      assert weights[..k][..k - 1] == weights[..k - 1];
    }
  }

  /** Pairs taken by `zip`: as many as the shorter list has. */
  function Pairs(components: seq<seq<int>>, weights: seq<real>): (n: nat)
    ensures n <= |components| && n <= |weights|
    ensures n == |components| || n == |weights|
  {
    if |components| <= |weights| then |components| else |weights|
  }

  /** The weighted score of row t: the sum of weight * signal over the
      zipped pairs. */
  function Score(components: seq<seq<int>>, weights: seq<real>, rows: nat, t: nat): (r: real)
    requires Aligned(components, rows) && t < rows
    ensures (forall j :: 0 <= j < |components| ==> components[j][t] == 0) ==> r == 0.0
    ensures (forall j :: 0 <= j < |weights| ==> weights[j] >= 0.0)
            && (forall j :: 0 <= j < |components| ==> -1 <= components[j][t] <= 1)
            ==> -Sum(weights[..Pairs(components, weights)]) <= r <= Sum(weights[..Pairs(components, weights)])
  {
    ScoreUpToBounds(components, weights, Pairs(components, weights), t);
    ScoreUpTo(components, weights, Pairs(components, weights), t)
  }

  /** When all components agree on s at row t, the score is s times the
      weight total. */
  lemma {:induction false} AgreeingScore(components: seq<seq<int>>, weights: seq<real>, k: nat, t: nat, s: int)
    requires k <= |components| && k <= |weights|
    requires forall j :: 0 <= j < k ==> t < |components[j]| && components[j][t] == s
    ensures ScoreUpTo(components, weights, k, t) == s as real * Sum(weights[..k])
  {
    if k > 0 {
      AgreeingScore(components, weights, k - 1, t, s);
      assert weights[..k][..k - 1] == weights[..k - 1];
    }
  }

  /** With weights summing to one, one weight per strategy, and every
      component signalling s in {-1, 1} at a row, the ensemble signals s. */
  lemma UnanimousVote(components: seq<seq<int>>, weights: seq<real>, rows: nat, t: nat, s: int)
    requires Aligned(components, rows) && t < rows
    requires |weights| == |components| && Sum(weights) == 1.0
    requires s == 1 || s == -1
    requires forall j :: 0 <= j < |components| ==> components[j][t] == s
    ensures Vote(Score(components, weights, rows, t)) == s
  {
    AgreeingScore(components, weights, |components|, t, s);
    assert weights[..|components|] == weights;
  }

  /** Two equally weighted strategies that disagree cancel out. */
  lemma SplitVoteIsFlat()
    ensures Vote(Score([[1], [-1]], [0.5, 0.5], 1, 0)) == 0
  {
  }

  /** Weights divided by their total; numpy gives non-finite weights for a
      zero total, which is `None` here. */
  function NormalizeWeights(raw: seq<real>): (r: Option<seq<real>>)
    ensures r.None? <==> Sum(raw) == 0.0
    ensures r.Some? ==> |r.value| == |raw|
  {
    if Sum(raw) == 0.0 then None else Some(seq(|raw|, k requires 0 <= k < |raw| => raw[k] / Sum(raw)))
  }

  /** Normalised weights sum to one. */
  lemma NormalizedSumsToOne(raw: seq<real>)
    requires Sum(raw) != 0.0
    ensures NormalizeWeights(raw).Some? && Sum(NormalizeWeights(raw).value) == 1.0
  {
    var total := Sum(raw);
    var w := NormalizeWeights(raw).value;
    SumDivided(raw, w, total);
    assert total / total == 1.0;
  }

  /** Non-negative raw weights stay non-negative after normalisation. */
  lemma NormalizedStaysNonNegative(raw: seq<real>)
    requires Sum(raw) != 0.0
    requires forall k :: 0 <= k < |raw| ==> raw[k] >= 0.0
    ensures forall k :: 0 <= k < |raw| ==> NormalizeWeights(raw).value[k] >= 0.0
  {
    var total := Sum(raw);
    var w := NormalizeWeights(raw).value;
    SumNonNegative(raw);
    forall k | 0 <= k < |raw| ensures w[k] >= 0.0 {
      NonNegativeQuotient(raw[k], total);
    }
  }

  lemma NonNegativeQuotient(a: real, b: real)
    requires a >= 0.0 && b > 0.0
    ensures a / b >= 0.0
  {
  }

  /** The ensemble: its number of component strategies and their weights. */
  class EnsembleStrategy {
    const strategyCount: nat
    var weights: seq<real>

    constructor (strategyCount: nat, weights: seq<real>)
      ensures this.strategyCount == strategyCount && this.weights == weights
    {
      this.strategyCount := strategyCount;
      this.weights := weights;
    }

    /** Combine the components' signals: accumulate weight * signal per
        strategy (zip stops at the shorter list), then vote per row. */
    method GenerateSignals(components: seq<seq<int>>, rows: nat) returns (signals: seq<int>)
      requires |components| == strategyCount && Aligned(components, rows)
      ensures |signals| == rows
      ensures forall t :: 0 <= t < rows ==> signals[t] == Vote(Score(components, weights, rows, t))
    {
      var combined := seq(rows, t => 0.0);
      var n := Pairs(components, weights);
      var k := 0;
      while k < n
        invariant 0 <= k <= n
        invariant |combined| == rows
        invariant forall t :: 0 <= t < rows ==> combined[t] == ScoreUpTo(components, weights, k, t)
      {
        var signal := components[k];
        var weight := weights[k];
        combined := seq(rows, t requires 0 <= t < rows && |combined| == rows =>
                                combined[t] + signal[t] as real * weight);
        k := k + 1;
      }
      signals := seq(rows, t requires 0 <= t < rows && |combined| == rows => Vote(combined[t]));
    }

    /** Store the optimiser's best weights, normalised to sum to one. */
    method ApplyOptimizedWeights(best: seq<real>)
      requires |best| == strategyCount && Sum(best) != 0.0
      modifies this
      ensures weights == NormalizeWeights(best).value
      ensures Sum(weights) == 1.0
    {
      var total := Sum(best);
      weights := seq(|best|, k requires 0 <= k < |best| => best[k] / total);
      NormalizedSumsToOne(best);
    }
  }

  /** Build an ensemble; with no weights given and no strategies the default
      weights divide by zero. */
  method NewEnsemble(strategyCount: nat, given: Option<seq<real>>) returns (r: Result<EnsembleStrategy, StrategyError>)
    ensures InitialWeights(strategyCount, given).Err? ==> r == Err(InitialWeights(strategyCount, given).error)
    ensures InitialWeights(strategyCount, given).Ok? ==>
              r.Ok? && fresh(r.value) && r.value.strategyCount == strategyCount
              && r.value.weights == InitialWeights(strategyCount, given).value
  {
    var w := InitialWeights(strategyCount, given);
    if w.Err? {
      return Err(w.error);
    }
    var e := new EnsembleStrategy(strategyCount, w.value);
    r := Ok(e);
  }

  /** The classifier's signal for one row from its up-probability p: 1 when
      p > threshold, then -1 when p < 1 - threshold (assigned last, so it
      wins when both hold), otherwise 0. */
  function MlSignal(threshold: real, p: real): (s: int)
    ensures s in {-1, 0, 1}
    ensures s == -1 <==> p < 1.0 - threshold
    ensures s == 1 <==> p > threshold && !(p < 1.0 - threshold)
  {
    var s := if p > threshold then 1 else 0;
    if p < 1.0 - threshold then -1 else s
  }

  /** For a threshold of at least one half the two conditions never both
      hold; below one half a middle probability meets both, and -1 wins. */
  lemma MlSignalOverlap(threshold: real, p: real)
    ensures threshold >= 0.5 ==> (MlSignal(threshold, p) == 1 <==> p > threshold)
    ensures MlSignal(0.3, 0.5) == -1
  {
  }

  /** The ML strategy's signals over `rows` data rows. `probabilities` is
      the predicted up-probability per row, or `None` when no feature
      column was found (an empty feature matrix). An unfitted model or an
      empty matrix gives all zeros. */
  function MlSignals(threshold: real, fitted: bool, rows: nat, probabilities: Option<seq<real>>): (r: seq<int>)
    requires probabilities.Some? ==> |probabilities.value| == rows
    ensures |r| == rows
    ensures !fitted || probabilities.None? || rows == 0 ==> forall t :: 0 <= t < rows ==> r[t] == 0
    ensures fitted && probabilities.Some? ==>
              forall t :: 0 <= t < rows ==> r[t] == MlSignal(threshold, probabilities.value[t])
  {
    if probabilities.None? || rows == 0 || !fitted then seq(rows, t => 0)
    else seq(rows, t requires 0 <= t < rows => MlSignal(threshold, probabilities.value[t]))
  }
}

=== FILE: backtester.dfy ===
/** The bar-by-bar backtest loop: a FLAT / OPEN state machine over a signal
    series that sizes entries with the basic risk manager, trades through the
    simple executor and keeps a running capital figure, followed by the
    end-of-run aggregation. Prices, rolling volatilities and signals are
    inputs, one bar per timestamp. */
module Backtesting {
  import opened Common
  import opened SimpleExecution
  import RiskRules

  /** One bar: its timestamp, close price, rolling volatility and signal. */
  datatype Bar = Bar(timestamp: int, close: real, volatility: real, signal: int)

  /** Why a run stops: the entry size is not a finite number (see `BarSize`),
      the executor has no position for the symbol when an exit reads its size,
      or the initial capital is zero when the total return is computed in
      Python floats. */
  datatype BacktestError = NonFiniteSize | MissingPosition | ZeroInitialCapital

  /** Loop variables plus the executor's state. */
  datatype LoopState = LoopState(
    capital: real,
    position: int,
    entryPrice: real,
    positions: map<string, Holding>,
    trades: seq<TradeRecord>)

  /** The result dictionary of a run. */
  datatype Report = Report(
    initialCapital: real,
    finalPortfolioValue: real,
    totalReturn: Option<real>,
    totalTrades: nat,
    profitableTrades: nat,
    winRate: real,
    totalPnl: real,
    tradeHistory: seq<TradeRecord>)

  /** While OPEN, the exit test: stop-loss, then take-profit, then an opposite
      signal. A long is held while the close stays inside the band from
      entry * (1 - stopLoss) to entry * (1 + takeProfit) and the signal is not
      bearish; a short mirrors it. */
  function ExitTriggered(rm: RiskRules.RiskManager, entryPrice: real, price: real, position: int, signal: int)
    : (exit: bool)
    ensures position != 0 && signal == -position ==> exit
    ensures position == 0 ==> (exit <==> signal == 0)
    ensures position > 0 && signal >= 0
            && entryPrice * (1.0 - rm.stopLoss) <= price <= entryPrice * (1.0 + rm.takeProfit)
            ==> !exit
    ensures position < 0 && signal <= 0
            && entryPrice * (1.0 - rm.takeProfit) <= price <= entryPrice * (1.0 + rm.stopLoss)
            ==> !exit
  {
    RiskRules.CheckStopLoss(rm, entryPrice, price, position)
    || RiskRules.CheckTakeProfit(rm, entryPrice, price, position)
    || signal == -position
  }

  /** The entry size as the loop obtains it. The close and the rolling
      volatility are NumPy scalars, so a zero divisor yields an IEEE infinity
      or NaN instead of raising. A zero volatility times a negative close is
      -0.0, so the volatility term is +inf exactly when the cap and the close
      have the same sign; it then loses the `min` and the size is the cap over
      the close. None where the size itself is infinite or NaN: a zero close,
      or a zero product with a cap that is zero or of the other sign than the
      close (a -inf or NaN wins the `min`). Wherever the Python-float rule
      succeeds, both agree. */
  function BarSize(rm: RiskRules.RiskManager, capital: real, price: real, volatility: real): (size: Option<real>)
    ensures size.None? <==> price == 0.0
                            || (volatility * price == 0.0
                                && !(price > 0.0 && RiskRules.Cap(rm, capital) > 0.0)
                                && !(price < 0.0 && RiskRules.Cap(rm, capital) < 0.0))
    ensures RiskRules.PositionSize(rm, capital, price, volatility).Ok?
            ==> size == Some(RiskRules.PositionSize(rm, capital, price, volatility).value)
    ensures size.Some? ==> size.value <= RiskRules.Cap(rm, capital) / price
  {
    var cap := RiskRules.Cap(rm, capital);
    if price == 0.0 then None
    else if volatility * price == 0.0 then
      (if (price > 0.0 && cap > 0.0) || (price < 0.0 && cap < 0.0) then Some(cap / price) else None)
    else Some(RiskRules.PositionSize(rm, capital, price, volatility).value)
  }

  /** A flat price series (zero volatility) does not stop the run: with a
      cap of the close's sign the entry is sized at the whole cap over the
      close. */
  lemma ZeroVolatilitySizesAtCap(rm: RiskRules.RiskManager, capital: real, price: real)
    requires (price > 0.0 && RiskRules.Cap(rm, capital) > 0.0) || (price < 0.0 && RiskRules.Cap(rm, capital) < 0.0)
    ensures BarSize(rm, capital, price, 0.0) == Some(RiskRules.Cap(rm, capital) / price)
  {
  }

  /** The signed zero matters: at a negative close a zero volatility makes a
      positive cap's volatility term -inf, which wins the `min`, so the size
      is not finite; the same cap at a positive close is sized at cap / close. */
  lemma NegativeCloseSignedZero(rm: RiskRules.RiskManager, capital: real, price: real)
    requires price < 0.0 && RiskRules.Cap(rm, capital) > 0.0
    ensures BarSize(rm, capital, price, 0.0) == None
    ensures BarSize(rm, capital, -price, 0.0) == Some(RiskRules.Cap(rm, capital) / -price)
  {
  }

  /** One iteration of the loop body. A bar either changes nothing or appends
      exactly one trade; the position only moves from FLAT to the bar's signal
      or back to FLAT. */
  function Step(rm: RiskRules.RiskManager, commission: real, symbol: string, s: LoopState, b: Bar)
    : (r: Result<LoopState, BacktestError>)
    ensures r.Ok? ==> s.trades <= r.value.trades && |r.value.trades| <= |s.trades| + 1
    ensures r.Ok? && |r.value.trades| == |s.trades| ==> r.value == s
    ensures r.Ok? ==> r.value.position == s.position || r.value.position == 0
                      || (s.position == 0 && r.value.position == b.signal)
    ensures r == Err(NonFiniteSize) ==> s.position == 0 && b.signal != 0
    ensures r == Err(MissingPosition) ==> s.position != 0 && symbol !in s.positions
  {
    if s.position == 0 && b.signal != 0 then
      match BarSize(rm, s.capital, b.close, b.volatility)
      case None => Err(NonFiniteSize)
      case Some(size) =>
        var (ps, t) := TradeStep(commission, s.positions, symbol, b.signal, b.close, size, b.timestamp);
        Ok(LoopState(s.capital - t.commission, b.signal, b.close, ps, s.trades + [t]))
    else if s.position != 0 && ExitTriggered(rm, s.entryPrice, b.close, s.position, b.signal) then
      if symbol !in s.positions then Err(MissingPosition)
      else
        var (ps, t) := TradeStep(commission, s.positions, symbol, -s.position, b.close,
                                 s.positions[symbol].size, b.timestamp);
        Ok(LoopState(s.capital + t.pnl, 0, 0.0, ps, s.trades + [t]))
    else
      Ok(s)
  }

  /** The loop over all bars: the state reached, and the error that stopped
      it if one was raised (the state is then the one before the failing bar). */
  function Replay(rm: RiskRules.RiskManager, commission: real, symbol: string, s: LoopState, bars: seq<Bar>)
    : (out: (LoopState, Option<BacktestError>))
    ensures s.trades <= out.0.trades
    ensures |out.0.trades| == |s.trades| ==> out.0 == s
    decreases |bars|
  {
    if bars == [] then (s, None)
    else
      match Step(rm, commission, symbol, s, bars[0])
      case Err(e) => (s, Some(e))
      case Ok(next) => Replay(rm, commission, symbol, next, bars[1..])
  }

  /** Number of ledger entries with a strictly positive PnL. */
  function CountProfitable(trades: seq<TradeRecord>): (n: nat)
    ensures n <= |trades|
    decreases |trades|
  {
    if trades == [] then 0
    else CountProfitable(trades[..|trades| - 1]) + (if trades[|trades| - 1].pnl > 0.0 then 1 else 0)
  }

  /** Sum of the ledger's PnL column: not positive when no trade is
      profitable, positive when every trade is. */
  function TotalPnl(trades: seq<TradeRecord>): (total: real)
    ensures CountProfitable(trades) == 0 ==> total <= 0.0
    ensures trades != [] && CountProfitable(trades) == |trades| ==> total > 0.0
    decreases |trades|
  {
    if trades == [] then 0.0 else TotalPnl(trades[..|trades| - 1]) + trades[|trades| - 1].pnl
  }

  /** End-of-run aggregation over the whole executor ledger. `traded` says
      whether this run executed a trade: the capital then holds a NumPy
      scalar, and dividing it by a zero initial capital gives NaN or an
      infinity (None here) instead of raising ZeroDivisionError. */
  function Summarize(initialCapital: real, traded: bool, s: LoopState): (r: Result<Report, BacktestError>)
    ensures r.Err? <==> initialCapital == 0.0 && !traded
    ensures r.Ok? ==> r.value.totalTrades == |s.trades| && r.value.finalPortfolioValue == s.capital
    ensures r.Ok? ==> 0.0 <= r.value.winRate <= 1.0
    ensures r.Ok? && s.trades == [] ==> r.value.winRate == 0.0
    ensures r.Ok? ==> (r.value.totalReturn.None? <==> initialCapital == 0.0)
    ensures r.Ok? && r.value.totalReturn.Some?
            ==> r.value.totalReturn.value * initialCapital == s.capital - initialCapital
  {
    if initialCapital == 0.0 && !traded then Err(ZeroInitialCapital)
    else
      var total := |s.trades|;
      var profitable := CountProfitable(s.trades);
      var winRate := if total > 0 then profitable as real / total as real else 0.0;
      var totalReturn := if initialCapital == 0.0 then None else Some((s.capital - initialCapital) / initialCapital);
      Ok(Report(initialCapital, s.capital, totalReturn, total, profitable, winRate, TotalPnl(s.trades), s.trades))
  }

  /** The loop's position variable agrees with the executor: FLAT exactly
      when the executor holds nothing for the symbol, and OPEN(sign) exactly
      when it holds a position opened with that sign. */
  ghost predicate Synced(symbol: string, s: LoopState)
  {
    (s.position == 0 <==> symbol !in s.positions)
    && (symbol in s.positions ==> s.positions[symbol].signal == s.position)
  }

  /** From a FLAT bar with a non-zero signal, a successful step opens a
      position in the signal's direction at the close, paying commission. */
  lemma EntryOpensPosition(rm: RiskRules.RiskManager, commission: real, symbol: string, s: LoopState, b: Bar)
    requires s.position == 0 && b.signal != 0
    requires Step(rm, commission, symbol, s, b).Ok?
    ensures var n := Step(rm, commission, symbol, s, b).value;
            var size := BarSize(rm, s.capital, b.close, b.volatility).value;
            n.position == b.signal && n.entryPrice == b.close
            && n.capital == s.capital - b.close * size * commission
            && |n.trades| == |s.trades| + 1
  {
  }

  /** While OPEN, a bar that triggers neither stop nor take-profit and whose
      signal is not the opposite one changes nothing, so a second entry signal
      is ignored. */
  lemma OpenBarWithoutExitIsIdle(rm: RiskRules.RiskManager, commission: real, symbol: string, s: LoopState, b: Bar)
    requires s.position != 0
    requires !ExitTriggered(rm, s.entryPrice, b.close, s.position, b.signal)
    ensures Step(rm, commission, symbol, s, b) == Ok(s)
  {
  }

  /** A FLAT bar with signal 0 changes nothing. */
  lemma FlatBarWithoutSignalIsIdle(rm: RiskRules.RiskManager, commission: real, symbol: string, s: LoopState, b: Bar)
    requires s.position == 0 && b.signal == 0
    ensures Step(rm, commission, symbol, s, b) == Ok(s)
  {
  }

  /** An exit from a synced OPEN state closes the executor position with its
      held size, adds the closing PnL (both commissions netted) to capital and
      returns to FLAT. */
  lemma ExitClosesPosition(rm: RiskRules.RiskManager, commission: real, symbol: string, s: LoopState, b: Bar)
    requires Synced(symbol, s) && s.position != 0
    requires ExitTriggered(rm, s.entryPrice, b.close, s.position, b.signal)
    ensures Step(rm, commission, symbol, s, b).Ok?
    ensures var n := Step(rm, commission, symbol, s, b).value;
            var held := s.positions[symbol];
            n.position == 0 && n.entryPrice == 0.0 && symbol !in n.positions
            && n.capital == s.capital + ClosingPnl(commission, held.price, b.close, held.size, held.signal)
            && |n.trades| == |s.trades| + 1
  {
  }

  /** Every step keeps the loop and the executor in agreement. */
  lemma StepKeepsSynced(rm: RiskRules.RiskManager, commission: real, symbol: string, s: LoopState, b: Bar)
    requires Synced(symbol, s)
    ensures Step(rm, commission, symbol, s, b) != Err(MissingPosition)
    ensures Step(rm, commission, symbol, s, b).Ok? ==> Synced(symbol, Step(rm, commission, symbol, s, b).value)
  {
    if s.position == 0 && b.signal != 0 {
      assert symbol !in s.positions;
    }
  }

  /** A run started in agreement with its executor (for instance on a fresh
      executor, FLAT) never fails on a missing position and ends in agreement
      (at most one open position, mirrored by the executor). */
  lemma {:induction false} ReplayKeepsSynced(rm: RiskRules.RiskManager, commission: real, symbol: string,
                                             s: LoopState, bars: seq<Bar>)
    requires Synced(symbol, s)
    ensures var (final, err) := Replay(rm, commission, symbol, s, bars);
            err != Some(MissingPosition) && Synced(symbol, final)
    decreases |bars|
  {
    if bars != [] {
      StepKeepsSynced(rm, commission, symbol, s, bars[0]);
      match Step(rm, commission, symbol, s, bars[0])
      case Err(e) =>
      case Ok(next) =>
        ReplayKeepsSynced(rm, commission, symbol, next, bars[1..]);
    }
  }

  /** The end-to-end scenario: capital 100000, commission 0.1%, an entry at
      100 sized to 10 units, then a take-profit exit at 110. The entry pays
      1.0, the exit books 97.9 net of both commissions, final capital is
      100096.9 and the ledger holds two trades, one profitable. */
  lemma RoundTripScenario()
    ensures var rm := RiskRules.RiskManager(0.01, 0.02, 0.05);
            var bars := [Bar(0, 100.0, 0.5, 1), Bar(1, 110.0, 0.5, 0)];
            var (final, err) := Replay(rm, 0.001, "XYZ", LoopState(100000.0, 0, 0.0, map[], []), bars);
            err.None? && final.capital == 100096.9 && final.position == 0
            && |final.trades| == 2 && final.trades[0].commission == 1.0 && final.trades[1].pnl == 97.9
            && Summarize(100000.0, true, final).Ok?
            && Summarize(100000.0, true, final).value.profitableTrades == 1
            && Summarize(100000.0, true, final).value.winRate == 0.5
  {
    var rm := RiskRules.RiskManager(0.01, 0.02, 0.05);
    var s0 := LoopState(100000.0, 0, 0.0, map[], []);
    var b0 := Bar(0, 100.0, 0.5, 1);
    var b1 := Bar(1, 110.0, 0.5, 0);
    RiskRules.SizeAtLowVolatility(rm, 100000.0, 100.0, 0.5);
    assert RiskRules.PositionSize(rm, 100000.0, 100.0, 0.5) == Ok(10.0);
    var t0 := TradeRecord(0, "XYZ", BuyAction, 100.0, 10.0, 1.0, 0.0);
    var s1 := LoopState(99999.0, 1, 100.0, map["XYZ" := Holding(1, 100.0, 10.0)], [t0]);
    assert TradeStep(0.001, map[], "XYZ", 1, 100.0, 10.0, 0) == (s1.positions, t0);
    assert s0.capital - t0.commission == 99999.0;
    assert s0.trades + [t0] == [t0];
    assert Step(rm, 0.001, "XYZ", s0, b0) == Ok(s1);
    assert RiskRules.CheckTakeProfit(rm, 100.0, 110.0, 1);
    var t1 := TradeRecord(1, "XYZ", SellAction, 110.0, 10.0, 1.1, 97.9);
    var s2 := LoopState(100096.9, 0, 0.0, map[], [t0, t1]);
    assert ExitTriggered(rm, 100.0, 110.0, 1, 0);
    assert ClosingPnl(0.001, 100.0, 110.0, 10.0, 1) == 97.9;
    assert s1.positions - {"XYZ"} == map[];
    assert TradeStep(0.001, s1.positions, "XYZ", -1, 110.0, 10.0, 1) == (map[], t1);
    assert s1.capital + t1.pnl == 100096.9;
    assert s1.trades + [t1] == [t0, t1];
    assert Step(rm, 0.001, "XYZ", s1, b1) == Ok(s2);
    assert [b0, b1][1..] == [b1];
    assert Replay(rm, 0.001, "XYZ", s2, []) == (s2, None);
    assert CountProfitable([t0, t1]) == 1 by {
      assert [t0, t1][..1] == [t0];
      assert [t0] [..0] == [];
    }
  }

  /** The backtester: initial capital and an executor that persists across runs. */
  class Backtester {
    const initialCapital: real
    const executor: Executor

    constructor (initialCapital: real, commission: real)
      ensures this.initialCapital == initialCapital
      ensures fresh(executor) && executor.commission == commission
      ensures executor.positions == map[] && executor.trades == []
    {
      this.initialCapital := initialCapital;
      executor := new Executor(commission);
    }

    /** Replay the bars for `symbol`. The executor keeps every trade made
        before an exception, as the source's does. */
    method Run(symbol: string, rm: RiskRules.RiskManager, bars: seq<Bar>)
      returns (r: Result<Report, BacktestError>)
      modifies executor
      ensures var (final, err) := Replay(rm, executor.commission, symbol,
                                         LoopState(initialCapital, 0, 0.0, old(executor.positions),
                                                   old(executor.trades)), bars);
              executor.positions == final.positions && executor.trades == final.trades
              && r == (if err.Some? then Err(err.value)
                       else Summarize(initialCapital, |final.trades| > |old(executor.trades)|, final))
    {
      ghost var start := LoopState(initialCapital, 0, 0.0, executor.positions, executor.trades);
      var tradesBefore := |executor.trades|;
      var portfolioValue := initialCapital;
      var position := 0;
      var entryPrice := 0.0;
      var i := 0;
      while i < |bars|
        invariant 0 <= i <= |bars|
        invariant Replay(rm, executor.commission, symbol, start, bars)
                  == Replay(rm, executor.commission, symbol,
                            LoopState(portfolioValue, position, entryPrice, executor.positions, executor.trades),
                            bars[i..])
      {
        var bar := bars[i];
        ghost var cur := LoopState(portfolioValue, position, entryPrice, executor.positions, executor.trades);
        if position == 0 && bar.signal != 0 {
          var sized := BarSize(rm, portfolioValue, bar.close, bar.volatility);
          if sized.None? {
            return Err(NonFiniteSize);
          }
          var trade := executor.ExecuteTrade(symbol, bar.signal, bar.close, sized.value, bar.timestamp);
          position := bar.signal;
          entryPrice := bar.close;
          portfolioValue := portfolioValue - trade.commission;
        } else if position != 0 {
          if RiskRules.CheckStopLoss(rm, entryPrice, bar.close, position)
             || RiskRules.CheckTakeProfit(rm, entryPrice, bar.close, position)
             || bar.signal == -position {
            if symbol !in executor.positions {
              return Err(MissingPosition);
            }
            var size := executor.positions[symbol].size;
            var trade := executor.ExecuteTrade(symbol, -position, bar.close, size, bar.timestamp);
            portfolioValue := portfolioValue + trade.pnl;
            position := 0;
            entryPrice := 0.0;
          }
        }
        assert Step(rm, executor.commission, symbol, cur, bar)
               == Ok(LoopState(portfolioValue, position, entryPrice, executor.positions, executor.trades));
        assert bars[i..][1..] == bars[i + 1..];
        i := i + 1;
      }
      var final := LoopState(portfolioValue, position, entryPrice, executor.positions, executor.trades);
      r := Summarize(initialCapital, |executor.trades| > tradesBefore, final);
    }
  }
}

=== FILE: common.dfy ===
/** Shared building blocks: optional values, results carrying the error a
    Python call would raise, and sums over sequences of reals. */
module Common {

  datatype Option<+T> = None | Some(value: T)

  datatype Result<+T, +E> = Ok(value: T) | Err(error: E)

  /** Sum of a sequence of reals, folded from the left as Python's `sum` does. */
  function Sum(s: seq<real>): real
    decreases |s|
  {
    if s == [] then 0.0 else Sum(s[..|s| - 1]) + s[|s| - 1]
  }

  /** `n` copies of the constant `c` sum to `n * c`. */
  lemma {:induction false} SumConstant(s: seq<real>, c: real)
    requires forall i :: 0 <= i < |s| ==> s[i] == c
    ensures Sum(s) == |s| as real * c
  {
    if s != [] {
      SumConstant(s[..|s| - 1], c);
    }
  }

  /** Dividing every element by `d` divides the sum by `d`. */
  lemma {:induction false} SumDivided(s: seq<real>, t: seq<real>, d: real)
    requires d != 0.0
    requires |t| == |s|
    requires forall i :: 0 <= i < |s| ==> t[i] == s[i] / d
    ensures Sum(t) == Sum(s) / d
  {
    if s != [] {
      SumDivided(s[..|s| - 1], t[..|t| - 1], d);
    }
  }

  /** A sum of non-negative terms is non-negative. */
  lemma {:induction false} SumNonNegative(s: seq<real>)
    requires forall i :: 0 <= i < |s| ==> s[i] >= 0.0
    ensures Sum(s) >= 0.0
  {
    if s != [] {
      SumNonNegative(s[..|s| - 1]);
    }
  }

  /** `base` raised to the natural power `k`. */
  function Pow(base: real, k: nat): real
  {
    if k == 0 then 1.0 else Pow(base, k - 1) * base
  }

  /** Python's two-argument `min`: the first argument unless the second is smaller. */
  function Min(a: real, b: real): (m: real)
    ensures m <= a && m <= b && (m == a || m == b)
  {
    if b < a then b else a
  }

  /** Dividing a non-negative amount by a larger
      positive divisor gives a smaller quotient. */
  lemma DivAntitone(a: real, b: real, c: real)
    requires a >= 0.0 && 0.0 < b <= c
    ensures a / c <= a / b
  {
    var q := a / c;
    assert q * c == a;
    assert q >= 0.0;
    assert q * b <= q * c;
    assert q * b <= a;
    assert q <= a / b by {
      assert (a / b) * b == a;
    }
  }

  /** Python's `str.split(sep)` for a one-character separator: the pieces
      between separators, with empty pieces kept, so there is always one
      more piece than there are separators. */
  function Split(s: string, sep: char): (r: seq<string>)
    ensures |r| >= 1
    ensures forall i :: 0 <= i < |r| ==> sep !in r[i]
    decreases |s|
  {
    if s == [] then [""]
    else
      var rest := Split(s[1..], sep);
      if s[0] == sep then [""] + rest else [[s[0]] + rest[0]] + rest[1..]
  }

  /** Python's `sep.join(parts)` for a non-empty list of pieces. */
  function Join(parts: seq<string>, sep: char): string
    requires |parts| >= 1
    decreases |parts|
  {
    if |parts| == 1 then parts[0] else parts[0] + [sep] + Join(parts[1..], sep)
  }

  /** Joining the pieces of a split gives the original string back. */
  lemma {:induction false} JoinSplit(s: string, sep: char)
    ensures Join(Split(s, sep), sep) == s
    decreases |s|
  {
    if s != [] {
      JoinSplit(s[1..], sep);
      var rest := Split(s[1..], sep);
      if s[0] != sep {
        var head := [s[0]] + rest[0];
        if |rest| == 1 {
          assert Split(s, sep) == [head];
        } else {
          assert Split(s, sep)[1..] == rest[1..];
          assert Join(rest, sep) == rest[0] + [sep] + Join(rest[1..], sep);
        }
      } else {
        assert Split(s, sep)[1..] == rest;
        assert s == [sep] + s[1..];
      }
    }
  }

  /** A piece without the separator, followed by the separator and a
      string, splits into that piece and the split of the string. */
  lemma {:induction false} SplitAfterPiece(w: string, sep: char, t: string)
    requires sep !in w
    ensures Split(w + [sep] + t, sep) == [w] + Split(t, sep)
    decreases |w|
  {
    if w == [] {
      assert w + [sep] + t == [sep] + t;
      assert ([sep] + t)[1..] == t;
    } else {
      SplitAfterPiece(w[1..], sep, t);
      assert (w + [sep] + t)[1..] == w[1..] + [sep] + t;
      assert [w[0]] + w[1..] == w;
    }
  }

  /** A string without the separator is a single piece. */
  lemma {:induction false} SplitPlain(w: string, sep: char)
    requires sep !in w
    ensures Split(w, sep) == [w]
    decreases |w|
  {
    if w != [] {
      SplitPlain(w[1..], sep);
      assert [w[0]] + w[1..] == w;
    }
  }

  /** Splitting a join of separator-free pieces gives the pieces back. */
  lemma {:induction false} SplitJoin(parts: seq<string>, sep: char)
    requires |parts| >= 1
    requires forall i :: 0 <= i < |parts| ==> sep !in parts[i]
    ensures Split(Join(parts, sep), sep) == parts
    decreases |parts|
  {
    if |parts| == 1 {
      SplitPlain(parts[0], sep);
    } else {
      SplitJoin(parts[1..], sep);
      SplitAfterPiece(parts[0], sep, Join(parts[1..], sep));
      assert [parts[0]] + parts[1..] == parts;
    }
  }
}

=== FILE: config.dfy ===
/** The configuration store: a nested dictionary addressed by dotted keys
    ("risk_management.stop_loss"). Reading walks the path and falls back to
    a default; writing creates missing intermediate dictionaries. */
module Settings {
  import opened Common

  datatype Scalar = Int(i: int) | Real(r: real) | Bool(b: bool) | Str(s: string)

  /** A configuration value: YAML null, a scalar, or a nested dictionary. */
  datatype Value = Null | Leaf(scalar: Scalar) | Dict(entries: map<string, Value>)

  /** Writing through an existing intermediate that is not a dictionary
      (Python's AttributeError / TypeError). */
  datatype ConfigError = NotADictionary(segment: string)

  /** The configuration written when no file exists. */
  const DefaultConfig: Value := Dict(map[
    "data" := Dict(map[
      "default_source" := Leaf(Str("yahoo")),
      "cache_dir" := Leaf(Str("data/cache")),
      "history_start" := Leaf(Str("2010-01-01"))]),
    "backtesting" := Dict(map[
      "initial_capital" := Leaf(Int(100000)),
      "commission" := Leaf(Real(0.001)),
      "slippage" := Leaf(Real(0.001))]),
    "risk_management" := Dict(map[
      "max_position_size" := Leaf(Real(0.1)),
      "stop_loss" := Leaf(Real(0.02)),
      "take_profit" := Leaf(Real(0.05)),
      "max_drawdown" := Leaf(Real(0.25))]),
    "logging" := Dict(map[
      "level" := Leaf(Str("INFO")),
      "file_path" := Leaf(Str("logs/trading_engine.log"))])])

  /** A dictionary's entry, or null when the key is absent (`dict.get`). */
  function Child(v: Value, k: string): Value
    requires v.Dict?
  {
    if k in v.entries then v.entries[k] else Null
  }

  /** The value at the path, or `None` when the walk reaches a
      non-dictionary before the path ends, a key is missing, or the value
      found is null: the cases in which `get` answers with its default. */
  function Lookup(v: Value, keys: seq<string>): (r: Option<Value>)
    ensures r.Some? ==> !r.value.Null?
    decreases |keys|
  {
    if keys == [] then (if v.Null? then None else Some(v))
    else if v.Dict? then Lookup(Child(v, keys[0]), keys[1..])
    else None
  }

  /** What `get` returns: the value at the dotted key, or the default. A
      null comes back only as the default, and a configuration that is not a
      dictionary answers every key with the default. */
  function GetSpec(config: Value, key: string, default: Value): (r: Value)
    ensures r.Null? ==> default.Null?
    ensures !config.Dict? ==> r == default
  {
    match Lookup(config, Split(key, '.'))
    case None => default
    case Some(v) => v
  }

  /** Stored values, falsy ones included, come back as stored; null,
      missing keys and paths through a scalar give the default. */
  lemma GetCases(default: Value)
    ensures GetSpec(Dict(map["x" := Leaf(Int(0))]), "x", default) == Leaf(Int(0))
    ensures GetSpec(Dict(map["x" := Leaf(Bool(false))]), "x", default) == Leaf(Bool(false))
    ensures GetSpec(Dict(map["x" := Null]), "x", default) == default
    ensures GetSpec(Dict(map[]), "x.y", default) == default
    ensures GetSpec(Dict(map["x" := Leaf(Int(1))]), "x.y", default) == default
  {
    SplitPlain("x", '.');
    assert ["x"][1..] == [];
    SplitJoin(["x", "y"], '.');
    assert Join(["x", "y"], '.') == "x.y";
  }

  /** A two-segment dotted key splits into its two segments. */
  lemma TwoSegments(a: string, b: string)
    requires '.' !in a && '.' !in b
    ensures Split(a + "." + b, '.') == [a, b]
  {
    SplitJoin([a, b], '.');
    assert [a, b][1..] == [b];
  }

  /** Reading the defaults by dotted key (written as its segments joined
      by "."): the stop-loss fraction. */
  lemma DefaultStopLoss()
    ensures GetSpec(DefaultConfig, "risk_management" + "." + "stop_loss", Null) == Leaf(Real(0.02))
  {
    TwoSegments("risk_management", "stop_loss");
    assert ["risk_management", "stop_loss"][1..] == ["stop_loss"] && ["stop_loss"][1..] == [];
    var section := DefaultConfig.entries["risk_management"];
    assert Child(DefaultConfig, "risk_management") == section;
    assert Child(section, "stop_loss") == Leaf(Real(0.02));
  }

  /** Reading the defaults by dotted key: the initial capital. */
  lemma DefaultInitialCapital()
    ensures GetSpec(DefaultConfig, "backtesting" + "." + "initial_capital", Null) == Leaf(Int(100000))
  {
    TwoSegments("backtesting", "initial_capital");
    assert ["backtesting", "initial_capital"][1..] == ["initial_capital"] && ["initial_capital"][1..] == [];
    var section := DefaultConfig.entries["backtesting"];
    assert Child(DefaultConfig, "backtesting") == section;
    assert Child(section, "initial_capital") == Leaf(Int(100000));
  }

  /** The default configuration has no trading mode, so live trading is off. */
  lemma DefaultHasNoTradingMode()
    ensures GetSpec(DefaultConfig, "trading" + "." + "mode", Null) == Null
  {
    TwoSegments("trading", "mode");
    assert ["trading", "mode"][1..] == ["mode"] && ["mode"][1..] == [];
    assert DefaultConfig.entries.Keys == {"data", "backtesting", "risk_management", "logging"};
    assert "trading"[0] == 't';
    assert "trading" !in DefaultConfig.entries;
    assert Child(DefaultConfig, "trading") == Null;
  }

  /** Every dictionary met along the path, where one exists, is a
      dictionary: the condition for a write to succeed. */
  predicate PathWritable(v: Value, keys: seq<string>)
    requires |keys| >= 1
    decreases |keys|
  {
    v.Dict? && (|keys| == 1 || !(keys[0] in v.entries) || PathWritable(v.entries[keys[0]], keys[1..]))
  }

  /** `set` on values: descend, creating an empty dictionary for each
      missing intermediate, and store `x` at the last segment. Fails
      exactly when an existing intermediate (or the root) is not a
      dictionary; then nothing has been created. */
  function Assign(v: Value, keys: seq<string>, x: Value): (r: Result<Value, ConfigError>)
    requires |keys| >= 1
    ensures r.Ok? <==> PathWritable(v, keys)
    ensures r.Ok? ==> r.value.Dict? && keys[0] in r.value.entries
    ensures r.Ok? ==> forall k :: k in v.entries && k != keys[0] ==> k in r.value.entries && r.value.entries[k] == v.entries[k]
    ensures r.Ok? ==> forall k :: k in r.value.entries && k != keys[0] ==> k in v.entries
    decreases |keys|
  {
    if !v.Dict? then Err(NotADictionary(keys[0]))
    else if |keys| == 1 then Ok(Dict(v.entries[keys[0] := x]))
    else
      var child := if keys[0] in v.entries then v.entries[keys[0]] else Dict(map[]);
      match Assign(child, keys[1..], x)
      case Err(e) => Err(e)
      case Ok(c) => Ok(Dict(v.entries[keys[0] := c]))
  }

  /** A fresh empty dictionary accepts any path. */
  lemma {:induction false} EmptyIsWritable(keys: seq<string>)
    requires |keys| >= 1
    ensures PathWritable(Dict(map[]), keys)
  {
  }

  /** After a successful write of a non-null value, the same path finds it. */
  lemma {:induction false} LookupAfterAssign(v: Value, keys: seq<string>, x: Value)
    requires |keys| >= 1 && Assign(v, keys, x).Ok? && !x.Null?
    ensures Lookup(Assign(v, keys, x).value, keys) == Some(x)
    decreases |keys|
  {
    if |keys| > 1 {
      var child := if keys[0] in v.entries then v.entries[keys[0]] else Dict(map[]);
      LookupAfterAssign(child, keys[1..], x);
    }
  }

  /** `set(k, x)` followed by `get(k)` returns x when x is not null. */
  lemma GetAfterSet(config: Value, key: string, x: Value, default: Value)
    requires Assign(config, Split(key, '.'), x).Ok?
    requires !x.Null?
    ensures GetSpec(Assign(config, Split(key, '.'), x).value, key, default) == x
  {
    LookupAfterAssign(config, Split(key, '.'), x);
  }

  /** Nothing is found below a missing key, whether it reads as null or
      as a new empty dictionary. */
  lemma NothingBelowMissing(path: seq<string>)
    requires |path| >= 1
    ensures Lookup(Dict(map[]), path) == None && Lookup(Null, path) == None
  {
  }

  /** Paths that part ways with the written path before either ends read
      the same before and after the write. */
  lemma {:induction false} AssignLeavesOtherPaths(v: Value, keys: seq<string>, x: Value, other: seq<string>, i: nat)
    requires |keys| >= 1 && Assign(v, keys, x).Ok?
    requires i < |keys| && i < |other| && keys[i] != other[i] && keys[..i] == other[..i]
    ensures Lookup(Assign(v, keys, x).value, other) == Lookup(v, other)
    decreases |keys|
  {
    var w := Assign(v, keys, x).value;
    if i == 0 {
      assert Child(w, other[0]) == Child(v, other[0]);
    } else {
      assert other[0] == keys[..i][0];
      var child := if keys[0] in v.entries then v.entries[keys[0]] else Dict(map[]);
      assert keys[1..][..i - 1] == keys[..i][1..] && other[1..][..i - 1] == other[..i][1..];
      AssignLeavesOtherPaths(child, keys[1..], x, other[1..], i - 1);
      if keys[0] !in v.entries {
        NothingBelowMissing(other[1..]);
      }
    }
  }

  /** Writing under an existing non-dictionary fails. */
  lemma WriteThroughScalarFails(s: Scalar, x: Value)
    ensures Assign(Dict(map["a" := Leaf(s)]), ["a", "b"], x).Err?
    ensures Assign(Leaf(s), ["a"], x).Err?
  {
  }

  /** The configuration object. */
  class Config {
    var config: Value

    /** Load the file's contents, or the default configuration when there
        is no file. */
    constructor (fileContents: Option<Value>)
      ensures config == if fileContents.Some? then fileContents.value else DefaultConfig
    {
      config := if fileContents.Some? then fileContents.value else DefaultConfig;
    }

    /** Walk the dotted key segment by segment. */
    method Get(key: string, default: Value) returns (r: Value)
      ensures r == GetSpec(config, key, default)
    {
      var keys := Split(key, '.');
      var value := config;
      var i := 0;
      while i < |keys|
        invariant 0 <= i <= |keys|
        invariant Lookup(config, keys) == Lookup(value, keys[i..])
      {
        if value.Dict? {
          value := Child(value, keys[i]);
          assert keys[i..][1..] == keys[i + 1..];
        } else {
          return default;
        }
        i := i + 1;
      }
      r := if value.Null? then default else value;
    }

    /** Store a value at the dotted key, creating missing intermediates;
        on failure the configuration is unchanged. */
    method Set(key: string, x: Value) returns (err: Option<ConfigError>)
      modifies this
      ensures var a := Assign(old(config), Split(key, '.'), x);
              if a.Ok? then err.None? && config == a.value else err == Some(a.error) && config == old(config)
    {
      var a := Assign(config, Split(key, '.'), x);
      if a.Err? {
        return Some(a.error);
      }
      config := a.value;
      err := None;
    }
  }
}

=== FILE: data_manager.dfy ===
/** The data manager: frame validation (de-duplicate, sort, forward-fill,
    drop incomplete rows), the crypto source's interval mapping and the
    fetch cache keyed by the call's arguments. A frame is a sequence of rows
    indexed by timestamp; a missing cell is `None`. */
module MarketData {
  import opened Common

  datatype Row = Row(timestamp: int, values: seq<Option<real>>)

  /** Timestamps occurring in a frame. */
  function Timestamps(rows: seq<Row>): (ts: set<int>)
    ensures forall i :: 0 <= i < |rows| ==> rows[i].timestamp in ts
    ensures forall t :: t in ts ==> exists i :: 0 <= i < |rows| && rows[i].timestamp == t
    decreases |rows|
  {
    if rows == [] then {}
    else
      var rest := Timestamps(rows[1..]);
      assert forall i :: 0 < i < |rows| ==> rows[i] == rows[1..][i - 1];
      {rows[0].timestamp} + rest
  }

  /** No two rows share a timestamp. */
  predicate DistinctTimestamps(rows: seq<Row>)
  {
    forall i, j :: 0 <= i < j < |rows| ==> rows[i].timestamp != rows[j].timestamp
  }

  /** Timestamps never decrease. */
  predicate SortedByTimestamp(rows: seq<Row>)
  {
    forall i, j :: 0 <= i < j < |rows| ==> rows[i].timestamp <= rows[j].timestamp
  }

  /** Timestamps strictly increase. */
  predicate StrictlyIncreasing(rows: seq<Row>)
  {
    forall i, j :: 0 <= i < j < |rows| ==> rows[i].timestamp < rows[j].timestamp
  }

  /** A row without missing cells. */
  predicate Complete(r: Row)
  {
    forall c :: 0 <= c < |r.values| ==> r.values[c].Some?
  }

  /** The first row of the frame carrying timestamp `t`. */
  function FirstWith(rows: seq<Row>, t: int): (r: Option<Row>)
    ensures r.Some? ==> r.value in rows && r.value.timestamp == t
    ensures r.None? <==> t !in Timestamps(rows)
    decreases |rows|
  {
    if rows == [] then None
    else if rows[0].timestamp == t then Some(rows[0])
    else FirstWith(rows[1..], t)
  }

  /** Rows whose timestamp has not occurred before, in input order, given
      the timestamps already kept. */
  function DedupeAfter(rows: seq<Row>, seen: set<int>): (r: seq<Row>)
    ensures DistinctTimestamps(r)
    ensures Timestamps(r) == Timestamps(rows) - seen
    ensures forall i :: 0 <= i < |r| ==> FirstWith(rows, r[i].timestamp) == Some(r[i])
    decreases |rows|
  {
    if rows == [] then []
    else
      var rest := DedupeAfter(rows[1..], seen + {rows[0].timestamp});
      if rows[0].timestamp in seen then
        rest
      else
        var r := [rows[0]] + rest;
        assert r[1..] == rest;
        assert rows[0].timestamp !in Timestamps(rest);
        r
  }

  /** Duplicate timestamps removed, keeping the first occurrence. The result
      has distinct timestamps, the same set of timestamps, and each kept row
      is the first input row with its timestamp. */
  function Dedupe(rows: seq<Row>): (r: seq<Row>)
    ensures DistinctTimestamps(r)
    ensures Timestamps(r) == Timestamps(rows)
    ensures forall i :: 0 <= i < |r| ==> FirstWith(rows, r[i].timestamp) == Some(r[i])
  {
    DedupeAfter(rows, {})
  }

  /** A frame whose timestamps are already distinct is left as it is. */
  lemma {:induction false} DedupeAfterKeepsDistinct(rows: seq<Row>, seen: set<int>)
    requires DistinctTimestamps(rows)
    requires seen !! Timestamps(rows)
    ensures DedupeAfter(rows, seen) == rows
    decreases |rows|
  {
    if rows != [] {
      assert rows[0].timestamp !in Timestamps(rows[1..]);
      DedupeAfterKeepsDistinct(rows[1..], seen + {rows[0].timestamp});
      assert [rows[0]] + rows[1..] == rows;
    }
  }

  /** De-duplicating twice is the same as de-duplicating once. */
  lemma DedupeIdempotent(rows: seq<Row>)
    ensures Dedupe(Dedupe(rows)) == Dedupe(rows)
  {
    DedupeAfterKeepsDistinct(Dedupe(rows), {});
  }

  /** Every row has `width` cells, as in a data frame. */
  predicate Rectangular(rows: seq<Row>, width: nat)
  {
    forall i :: 0 <= i < |rows| ==> |rows[i].values| == width
  }

  /** Cell (i, c) after forward fill: its own value when present, otherwise
      the filled value of the row above in the same column; a missing cell
      in the first row stays missing. */
  function FilledCell(rows: seq<Row>, i: nat, c: nat): Option<real>
    requires i < |rows|
    decreases i
  {
    if c < |rows[i].values| && rows[i].values[c].Some? then rows[i].values[c]
    else if i == 0 then None
    else FilledCell(rows, i - 1, c)
  }

  /** Forward fill down each column of the frame, in frame order. */
  function ForwardFill(rows: seq<Row>): (r: seq<Row>)
    ensures |r| == |rows|
    ensures forall i :: 0 <= i < |rows| ==> r[i].timestamp == rows[i].timestamp
    ensures forall i :: 0 <= i < |rows| ==> |r[i].values| == |rows[i].values|
  {
    seq(|rows|, i requires 0 <= i < |rows| =>
          Row(rows[i].timestamp, seq(|rows[i].values|, c requires 0 <= c < |rows[i].values| => FilledCell(rows, i, c))))
  }

  /** Present cells are kept and missing cells below the first row take the
      filled value of the row above. */
  lemma FillKeepsPresentAndCopiesDown(rows: seq<Row>, width: nat, i: nat, c: nat)
    requires Rectangular(rows, width)
    requires i < |rows| && c < width
    ensures rows[i].values[c].Some? ==> ForwardFill(rows)[i].values[c] == rows[i].values[c]
    ensures rows[i].values[c].None? && i > 0 ==> ForwardFill(rows)[i].values[c] == ForwardFill(rows)[i - 1].values[c]
    ensures rows[i].values[c].None? && i == 0 ==> ForwardFill(rows)[i].values[c].None?
  {
  }

  /** Some row at or above row i has a value in column c. */
  ghost predicate SeenAbove(rows: seq<Row>, i: nat, c: nat)
  {
    exists j :: 0 <= j <= i && j < |rows| && c < |rows[j].values| && rows[j].values[c].Some?
  }

  /** A cell is missing after forward fill exactly when no row at or above
      it has a value in that column: only leading gaps survive the fill. */
  lemma {:induction false} MissingAfterFillIsLeading(rows: seq<Row>, i: nat, c: nat)
    requires i < |rows|
    ensures FilledCell(rows, i, c).None? <==> !SeenAbove(rows, i, c)
    decreases i
  {
    if !(c < |rows[i].values| && rows[i].values[c].Some?) && i > 0 {
      MissingAfterFillIsLeading(rows, i - 1, c);
      if SeenAbove(rows, i, c) {
        var j :| 0 <= j <= i && j < |rows| && c < |rows[j].values| && rows[j].values[c].Some?;
        assert SeenAbove(rows, i - 1, c);
      }
    }
  }

  /** Rows with a missing cell removed, in order. */
  function DropMissing(rows: seq<Row>): (r: seq<Row>)
    ensures |r| <= |rows|
    ensures forall k :: 0 <= k < |r| ==> Complete(r[k]) && r[k] in rows
    ensures forall k :: 0 <= k < |rows| && Complete(rows[k]) ==> rows[k] in r
    decreases |rows|
  {
    if rows == [] then []
    else
      var front := DropMissing(rows[..|rows| - 1]);
      var last := rows[|rows| - 1];
      assert forall k :: 0 <= k < |rows| - 1 ==> rows[k] == rows[..|rows| - 1][k];
      if Complete(last) then front + [last] else front
  }

  /** Dropping rows keeps timestamps strictly increasing. */
  lemma {:induction false} DropMissingKeepsOrder(rows: seq<Row>)
    requires StrictlyIncreasing(rows)
    ensures StrictlyIncreasing(DropMissing(rows))
    decreases |rows|
  {
    if rows != [] {
      var front := rows[..|rows| - 1];
      DropMissingKeepsOrder(front);
      var d := DropMissing(front);
      forall k | 0 <= k < |d|
        ensures d[k].timestamp < rows[|rows| - 1].timestamp
      {
        var j :| 0 <= j < |front| && front[j] == d[k];
      }
    }
  }

  /** Once every column has had a value at or above row i, the filled row i
      is complete and survives the drop. */
  lemma RowSurvivesOnceEveryColumnSeen(rows: seq<Row>, width: nat, i: nat)
    requires Rectangular(rows, width)
    requires i < |rows|
    requires forall c :: 0 <= c < width ==> SeenAbove(rows, i, c)
    ensures Complete(ForwardFill(rows)[i])
    ensures ForwardFill(rows)[i] in DropMissing(ForwardFill(rows))
  {
    var filled := ForwardFill(rows);
    forall c | 0 <= c < |filled[i].values|
      ensures filled[i].values[c].Some?
    {
      MissingAfterFillIsLeading(rows, i, c);
    }
  }

  /** Swap two rows of the frame. */
  method Swap(a: array<Row>, i: int, j: int)
    requires 0 <= i < a.Length && 0 <= j < a.Length
    modifies a
    ensures a[..] == old(a[..])[i := old(a[j])][j := old(a[i])]
    ensures multiset(a[..]) == old(multiset(a[..]))
  {
    a[i], a[j] := a[j], a[i];
  }

  /** Exchanging two rows keeps the timestamps distinct. */
  lemma SwapKeepsDistinct(s: seq<Row>, i: nat, j: nat)
    requires i < |s| && j < |s|
    requires DistinctTimestamps(s)
    ensures DistinctTimestamps(s[i := s[j]][j := s[i]])
  {
    var t := s[i := s[j]][j := s[i]];
    forall k, l | 0 <= k < l < |t|
      ensures t[k].timestamp != t[l].timestamp
    {
      var k' := if k == i then j else if k == j then i else k;
      var l' := if l == i then j else if l == j then i else l;
      assert t[k] == s[k'] && t[l] == s[l'] && k' != l';
    }
  }

  /** Rows 0..i are in timestamp order, except possibly around the row at
      j that is being moved down. */
  ghost predicate SortedExcept(s: seq<Row>, i: nat, j: nat)
    requires j <= i < |s|
  {
    (forall k, l :: 0 <= k < l <= i && l != j ==> s[k].timestamp <= s[l].timestamp)
    && (0 < j < i ==> s[j - 1].timestamp <= s[j + 1].timestamp)
  }

  /** Moving the out-of-order row one place down keeps the other rows in order. */
  lemma InsertionStep(s: seq<Row>, i: nat, j: nat)
    requires 0 < j <= i < |s|
    requires SortedExcept(s, i, j) && s[j - 1].timestamp > s[j].timestamp
    ensures SortedExcept(s[j - 1 := s[j]][j := s[j - 1]], i, j - 1)
  {
    var t := s[j - 1 := s[j]][j := s[j - 1]];
    forall k, l | 0 <= k < l <= i && l != j - 1
      ensures t[k].timestamp <= t[l].timestamp
    {
      if l == j {
        if k < j - 1 {
          assert t[k] == s[k] && t[l] == s[j - 1];
        } else {
          assert t[k] == s[j] && t[l] == s[j - 1];
        }
      } else if k == j - 1 {
        assert t[k] == s[j] && t[l] == s[l];
        if l > j {
          assert s[j - 1].timestamp <= s[l].timestamp;
        }
      } else if k == j {
        assert t[k] == s[j - 1] && t[l] == s[l];
      } else {
        assert t[k] == s[k] && t[l] == s[l];
      }
    }
  }

  /** Sort the frame by timestamp in place (insertion sort). */
  method SortByTimestampInPlace(a: array<Row>)
    modifies a
    ensures SortedByTimestamp(a[..])
    ensures multiset(a[..]) == old(multiset(a[..]))
    ensures DistinctTimestamps(old(a[..])) ==> DistinctTimestamps(a[..])
  {
    ghost var distinct := DistinctTimestamps(a[..]);
    var i := 0;
    while i < a.Length
      invariant 0 <= i <= a.Length
      invariant forall k, l :: 0 <= k < l < i ==> a[k].timestamp <= a[l].timestamp
      invariant multiset(a[..]) == old(multiset(a[..]))
      invariant distinct ==> DistinctTimestamps(a[..])
    {
      var j := i;
      while j > 0 && a[j - 1].timestamp > a[j].timestamp
        invariant 0 <= j <= i
        invariant SortedExcept(a[..], i, j)
        invariant multiset(a[..]) == old(multiset(a[..]))
        invariant distinct ==> DistinctTimestamps(a[..])
      {
        if distinct {
          SwapKeepsDistinct(a[..], j - 1, j);
        }
        InsertionStep(a[..], i, j);
        Swap(a, j - 1, j);
        j := j - 1;
      }
      i := i + 1;
    }
  }

  /** Forward-fill the frame in place, top to bottom: each row's missing
      cells take the (already filled) row above's cells. */
  method ForwardFillInPlace(a: array<Row>, ghost width: nat)
    requires Rectangular(a[..], width)
    modifies a
    ensures a[..] == ForwardFill(old(a[..]))
  {
    ghost var original := a[..];
    ghost var filled := ForwardFill(original);
    if a.Length == 0 {
      return;
    }
    assert filled[0].values == original[0].values;
    var i := 1;
    while i < a.Length
      invariant 1 <= i <= a.Length
      invariant a[..i] == filled[..i]
      invariant a[i..] == original[i..]
    {
      var above := a[i - 1].values;
      var cells := a[i].values;
      var next := seq(|cells|, c requires 0 <= c < |cells| =>
                        if cells[c].Some? then cells[c] else if c < |above| then above[c] else None);
      assert next == filled[i].values by {
        forall c | 0 <= c < |cells| ensures next[c] == filled[i].values[c] {
          FillKeepsPresentAndCopiesDown(original, width, i, c);
        }
      }
      a[i] := Row(a[i].timestamp, next);
      i := i + 1;
    }
  }

  /** Validation: de-duplicate keeping the first row per timestamp, sort by
      timestamp, forward-fill, then drop rows that still miss a value. The
      result has strictly increasing timestamps, no missing cells, only the
      input's timestamps, and is the fill-and-drop of a sorted permutation
      of the de-duplicated frame. */
  method ValidateData(rows: seq<Row>, ghost width: nat) returns (out: seq<Row>, ghost sorted: seq<Row>)
    requires Rectangular(rows, width)
    ensures StrictlyIncreasing(out)
    ensures forall k :: 0 <= k < |out| ==> Complete(out[k])
    ensures Timestamps(out) <= Timestamps(rows)
    ensures SortedByTimestamp(sorted) && multiset(sorted) == multiset(Dedupe(rows))
    ensures out == DropMissing(ForwardFill(sorted))
  {
    var deduped := Dedupe(rows);
    var a := new Row[|deduped|](k requires 0 <= k < |deduped| => deduped[k]);
    assert a[..] == deduped;
    RectangularOfPermutation(deduped, rows, width);
    SortByTimestampInPlace(a);
    sorted := a[..];
    RectangularOfPermutation(sorted, deduped, width);
    ForwardFillInPlace(a, width);
    out := DropMissing(a[..]);
    ValidatedOrderAndTimestamps(rows, deduped, sorted);
  }

  /** Rows of a permutation of rows of `rows` come from `rows`, so they have its width. */
  lemma RectangularOfPermutation(a: seq<Row>, rows: seq<Row>, width: nat)
    requires Rectangular(rows, width)
    requires multiset(a) == multiset(rows) || forall k :: 0 <= k < |a| ==> a[k] in rows
    ensures Rectangular(a, width)
  {
    forall k | 0 <= k < |a| ensures |a[k].values| == width
    {
      assert a[k] in multiset(a);
      assert a[k] in rows;
    }
  }

  /** The filled-and-dropped frame keeps a sorted distinct frame's order
      and uses only the input's timestamps. */
  lemma ValidatedOrderAndTimestamps(rows: seq<Row>, deduped: seq<Row>, sorted: seq<Row>)
    requires deduped == Dedupe(rows)
    requires SortedByTimestamp(sorted) && multiset(sorted) == multiset(deduped)
    ensures StrictlyIncreasing(DropMissing(ForwardFill(sorted)))
    ensures Timestamps(DropMissing(ForwardFill(sorted))) <= Timestamps(rows)
  {
    DistinctOfPermutation(deduped, sorted);
    FilledStrictlyIncreasing(sorted);
    DropMissingKeepsOrder(ForwardFill(sorted));
    TimestampsOfPermutation(sorted, deduped);
    FilledTimestamps(sorted);
    DropMissingTimestamps(ForwardFill(sorted));
  }

  lemma FilledStrictlyIncreasing(sorted: seq<Row>)
    requires SortedByTimestamp(sorted) && DistinctTimestamps(sorted)
    ensures StrictlyIncreasing(ForwardFill(sorted))
  {
    var filled := ForwardFill(sorted);
    forall i, j | 0 <= i < j < |filled| ensures filled[i].timestamp < filled[j].timestamp
    {
      assert filled[i].timestamp == sorted[i].timestamp && filled[j].timestamp == sorted[j].timestamp;
    }
  }

  lemma FilledTimestamps(rows: seq<Row>)
    ensures Timestamps(ForwardFill(rows)) == Timestamps(rows)
  {
    var filled := ForwardFill(rows);
    forall t | t in Timestamps(filled) ensures t in Timestamps(rows)
    {
      var i :| 0 <= i < |filled| && filled[i].timestamp == t;
      assert rows[i].timestamp == t;
    }
    forall t | t in Timestamps(rows) ensures t in Timestamps(filled)
    {
      var i :| 0 <= i < |rows| && rows[i].timestamp == t;
      assert filled[i].timestamp == t;
    }
  }

  lemma DropMissingTimestamps(rows: seq<Row>)
    ensures Timestamps(DropMissing(rows)) <= Timestamps(rows)
  {
    var out := DropMissing(rows);
    forall t | t in Timestamps(out) ensures t in Timestamps(rows)
    {
      var k :| 0 <= k < |out| && out[k].timestamp == t;
      var j :| 0 <= j < |rows| && rows[j] == out[k];
    }
  }

  /** Counting a value in a frame. */
  lemma {:induction false} DistinctCountsAtMostOne(s: seq<Row>, x: Row)
    requires DistinctTimestamps(s)
    ensures multiset(s)[x] <= 1
    decreases |s|
  {
    if s != [] {
      var front := s[..|s| - 1];
      DistinctCountsAtMostOne(front, x);
      assert s == front + [s[|s| - 1]];
      if x == s[|s| - 1] {
        assert x !in front;
      }
    }
  }

  /** A permutation of a frame with distinct timestamps has distinct timestamps. */
  lemma DistinctOfPermutation(a: seq<Row>, b: seq<Row>)
    requires DistinctTimestamps(a) && multiset(a) == multiset(b)
    ensures DistinctTimestamps(b)
  {
    forall i, j | 0 <= i < j < |b|
      ensures b[i].timestamp != b[j].timestamp
    {
      assert b[i] in multiset(a) && b[j] in multiset(a);
      var p :| 0 <= p < |a| && a[p] == b[i];
      var q :| 0 <= q < |a| && a[q] == b[j];
      if b[i] == b[j] {
        assert b == b[..j] + b[j..];
        assert b[i] in b[..j];
        assert multiset(b)[b[i]] == multiset(b[..j])[b[i]] + multiset(b[j..])[b[i]];
        assert b[j] in b[j..];
        DistinctCountsAtMostOne(a, b[i]);
      } else {
        assert p != q;
      }
    }
  }

  /** Permuted frames carry the same timestamps. */
  lemma TimestampsOfPermutation(a: seq<Row>, b: seq<Row>)
    requires multiset(a) == multiset(b)
    ensures Timestamps(a) == Timestamps(b)
  {
    forall t | t in Timestamps(a) ensures t in Timestamps(b)
    {
      var i :| 0 <= i < |a| && a[i].timestamp == t;
      assert a[i] in multiset(b);
    }
    forall t | t in Timestamps(b) ensures t in Timestamps(a)
    {
      var i :| 0 <= i < |b| && b[i].timestamp == t;
      assert b[i] in multiset(a);
    }
  }

  /** Timeframes the crypto exchange source accepts. */
  const KnownTimeframes: set<string> := {"1m", "1h", "1d", "1w"}

  /** The crypto source's interval mapping: a known timeframe maps to
      itself, anything else to the daily timeframe. */
  function ConvertInterval(interval: string): (r: string)
    ensures r in KnownTimeframes
  {
    if interval in KnownTimeframes then interval else "1d"
  }

  /** Known timeframes are fixed points, unknown ones become "1d", and
      converting twice is converting once. */
  lemma ConvertIntervalCases(interval: string)
    ensures interval in KnownTimeframes ==> ConvertInterval(interval) == interval
    ensures interval !in KnownTimeframes ==> ConvertInterval(interval) == "1d"
    ensures ConvertInterval(ConvertInterval(interval)) == ConvertInterval(interval)
    ensures ConvertInterval("5m") == "1d" && ConvertInterval("1h") == "1h"
  {
  }

  /** The registered data sources. */
  datatype Source = Yahoo | Crypto

  /** Looking a source up by name; any other name is a KeyError. */
  function SourceNamed(name: string): (r: Option<Source>)
    ensures r == Some(Yahoo) <==> name == "yahoo"
    ensures r == Some(Crypto) <==> name == "crypto"
    ensures r.None? <==> name != "yahoo" && name != "crypto"
  {
    if name == "yahoo" then Some(Yahoo) else if name == "crypto" then Some(Crypto) else None
  }

  /** What a source is asked for: the Yahoo history between the dates at the
      given interval, or the exchange's OHLCV series at the converted
      timeframe (the exchange request ignores the dates). */
  datatype Request =
    | History(symbol: string, startDate: Option<string>, endDate: Option<string>, interval: string)
    | Ohlcv(symbol: string, timeframe: string)

  function RequestFor(source: Source, symbol: string, startDate: Option<string>, endDate: Option<string>,
                      interval: string): (r: Request)
    ensures r.Ohlcv? <==> source == Crypto
    ensures r.Ohlcv? ==> r.timeframe in KnownTimeframes
    ensures r.symbol == symbol
  {
    match source
    case Yahoo => History(symbol, startDate, endDate, interval)
    case Crypto => Ohlcv(symbol, ConvertInterval(interval))
  }

  /** Errors of a fetch: an unregistered source name, or whatever the
      source (or the indicator computation after it) raised. */
  datatype FetchError = UnknownSource(name: string) | SourceFailed(reason: string)

  /** Python's formatting of an optional string: `None` prints as "None". */
  function ShowOptional(d: Option<string>): string
  {
    if d.None? then "None" else d.value
  }

  /** The cache key: the five arguments joined with underscores. When no
      argument contains '_', splitting the key at '_' gives them back. */
  function CacheKey(symbol: string, startDate: Option<string>, endDate: Option<string>,
                    interval: string, source: string): (key: string)
    ensures '_' !in symbol && '_' !in ShowOptional(startDate) && '_' !in ShowOptional(endDate)
            && '_' !in interval && '_' !in source
            ==> Split(key, '_') == [symbol, ShowOptional(startDate), ShowOptional(endDate), interval, source]
  {
    var parts := [symbol, ShowOptional(startDate), ShowOptional(endDate), interval, source];
    if forall i :: 0 <= i < |parts| ==> '_' !in parts[i] then
      SplitJoin(parts, '_');
      Join(parts, '_')
    else
      Join(parts, '_')
  }

  /** The key is ambiguous when an argument contains '_' or a date is the
      string "None": these argument lists differ but share a key, so the
      second call would be answered with the first call's frame. */
  lemma CacheKeyCollisions()
    ensures CacheKey("A", Some("B_C"), None, "1d", "yahoo") == CacheKey("A_B", Some("C"), None, "1d", "yahoo")
    ensures CacheKey("A", Some("None"), None, "1d", "yahoo") == CacheKey("A", None, None, "1d", "yahoo")
  {
  }

  /** Without '_' in any argument and without the date string "None",
      equal keys mean equal arguments. */
  lemma CacheKeyInjective(symbol: string, startDate: Option<string>, endDate: Option<string>,
                          interval: string, source: string,
                          symbol': string, startDate': Option<string>, endDate': Option<string>,
                          interval': string, source': string)
    requires '_' !in symbol && '_' !in interval && '_' !in source
    requires '_' !in symbol' && '_' !in interval' && '_' !in source'
    requires '_' !in ShowOptional(startDate) && '_' !in ShowOptional(endDate)
    requires '_' !in ShowOptional(startDate') && '_' !in ShowOptional(endDate')
    requires startDate != Some("None") && endDate != Some("None")
    requires startDate' != Some("None") && endDate' != Some("None")
    requires CacheKey(symbol, startDate, endDate, interval, source)
             == CacheKey(symbol', startDate', endDate', interval', source')
    ensures symbol == symbol' && startDate == startDate' && endDate == endDate'
    ensures interval == interval' && source == source'
  {
    var parts := [symbol, ShowOptional(startDate), ShowOptional(endDate), interval, source];
    var parts' := [symbol', ShowOptional(startDate'), ShowOptional(endDate'), interval', source'];
    SplitJoin(parts, '_');
    SplitJoin(parts', '_');
    assert parts == parts';
  }

  /** One `fetch_data` call: answer from the cache when the key is there;
      otherwise look the source up, load, and cache what was loaded. The
      loader stands for the source's network fetch plus the indicator
      computation. */
  function FetchStep(cache: map<string, seq<Row>>, symbol: string, startDate: Option<string>,
                     endDate: Option<string>, interval: string, source: string,
                     load: Request -> Result<seq<Row>, FetchError>)
    : (r: (Result<seq<Row>, FetchError>, map<string, seq<Row>>))
    ensures r.0.Err? ==> r.1 == cache
    ensures r.0.Ok? ==> r.1 == cache[CacheKey(symbol, startDate, endDate, interval, source) := r.0.value]
    ensures SourceNamed(source).None? && CacheKey(symbol, startDate, endDate, interval, source) !in cache
            ==> r.0 == Err(UnknownSource(source))
  {
    var key := CacheKey(symbol, startDate, endDate, interval, source);
    if key in cache then (Ok(cache[key]), cache)
    else match SourceNamed(source)
      case None => (Err(UnknownSource(source)), cache)
      case Some(src) =>
        var loaded := load(RequestFor(src, symbol, startDate, endDate, interval));
        if loaded.Err? then (loaded, cache) else (loaded, cache[key := loaded.value])
  }

  /** A repeated call with the same arguments returns the same frame from
      the cache, leaves the cache alone and does not depend on the source
      at all (any loader gives the same answer). */
  lemma RepeatFetchHitsCache(cache: map<string, seq<Row>>, symbol: string, startDate: Option<string>,
                             endDate: Option<string>, interval: string, source: string,
                             load: Request -> Result<seq<Row>, FetchError>,
                             load': Request -> Result<seq<Row>, FetchError>)
    requires FetchStep(cache, symbol, startDate, endDate, interval, source, load).0.Ok?
    ensures var first := FetchStep(cache, symbol, startDate, endDate, interval, source, load);
            FetchStep(first.1, symbol, startDate, endDate, interval, source, load') == first
  {
  }

  /** A failed load leaves no cache entry, so the next call asks the source again. */
  lemma FailedFetchIsNotCached(cache: map<string, seq<Row>>, symbol: string, startDate: Option<string>,
                               endDate: Option<string>, interval: string, source: string,
                               load: Request -> Result<seq<Row>, FetchError>)
    requires CacheKey(symbol, startDate, endDate, interval, source) !in cache
    requires FetchStep(cache, symbol, startDate, endDate, interval, source, load).0.Err?
    ensures CacheKey(symbol, startDate, endDate, interval, source)
            !in FetchStep(cache, symbol, startDate, endDate, interval, source, load).1
  {
  }

  /** The manager: the frame cache (the source table is fixed). */
  class DataManager {
    var cache: map<string, seq<Row>>

    constructor ()
      ensures cache == map[]
    {
      cache := map[];
    }

    /** Fetch a frame, through the cache. */
    method FetchData(symbol: string, startDate: Option<string>, endDate: Option<string>, interval: string,
                     source: string, load: Request -> Result<seq<Row>, FetchError>)
      returns (r: Result<seq<Row>, FetchError>)
      modifies this
      ensures (r, cache) == FetchStep(old(cache), symbol, startDate, endDate, interval, source, load)
    {
      var key := CacheKey(symbol, startDate, endDate, interval, source);
      if |cache| > 0 && key in cache {
        return Ok(cache[key]);
      }
      var src := SourceNamed(source);
      if src.None? {
        return Err(UnknownSource(source));
      }
      r := load(RequestFor(src.value, symbol, startDate, endDate, interval));
      if r.Ok? {
        cache := cache[key := r.value];
      }
    }
  }
}

=== FILE: error_handling.dfy ===
/** The retry decorator: call the wrapped function up to `max_retries`
    times, sleeping between attempts with a geometrically growing delay,
    and re-raise the last failure. The wrapped function is given as the
    outcome of its n-th call; sleeping is recorded as the list of delays. */
module Retrying {
  import opened Common

  /** An exception raised by the wrapped function. */
  datatype Exception = Exception(kind: string, message: string)

  /** What the n-th call of the wrapped function does. */
  datatype CallOutcome<T> = Returned(value: T) | Raised(exception: Exception)

  /** How the wrapper ends: with the function's value, by raising, or by
      returning None without calling (no attempts allowed). */
  datatype RetryResult<T> = Success(value: T) | Failed(exception: Exception) | NoneReturned

  /** The decorator's parameters. */
  datatype RetryPolicy = RetryPolicy(maxRetries: int, delay: real, backoffFactor: real)

  const DefaultPolicy: RetryPolicy := RetryPolicy(3, 1.0, 2.0)

  /** A run of the wrapper: its result, the number of calls and the sleeps. */
  datatype Trace<T> = Trace(result: RetryResult<T>, calls: nat, sleeps: seq<real>)

  /** What `time.sleep` raises for a negative delay; raised while the
      wrapped function's exception is being handled, it escapes the wrapper. */
  const NegativeSleep: Exception := Exception("ValueError", "sleep length must be non-negative")

  /** The delay after the next failure: never negative from a non-negative
      delay and factor, and never shorter with a factor of at least 1. */
  function NextDelay(p: RetryPolicy, currentDelay: real): (next: real)
    ensures currentDelay >= 0.0 && p.backoffFactor >= 0.0 ==> next >= 0.0
    ensures currentDelay >= 0.0 && p.backoffFactor >= 1.0 ==> next >= currentDelay
  {
    currentDelay * p.backoffFactor
  }

  /** The wrapper from attempt `attempt` on, waiting `currentDelay` after
      the next failure. `listed` says whether an exception is one of those
      the decorator retries on. A retried failure with a negative delay ends
      the run with `NegativeSleep`, so every recorded sleep is non-negative. */
  function RetryFrom<T>(p: RetryPolicy, listed: Exception -> bool, call: nat -> CallOutcome<T>,
                        attempt: nat, currentDelay: real): (t: Trace<T>)
    ensures attempt < p.maxRetries ==> attempt < t.calls <= p.maxRetries && !t.result.NoneReturned?
    ensures attempt >= p.maxRetries ==> t == Trace(NoneReturned, attempt, [])
    ensures attempt < p.maxRetries ==> t.calls == attempt + |t.sleeps| + 1
    ensures forall k :: 0 <= k < |t.sleeps| ==> t.sleeps[k] >= 0.0
    decreases if p.maxRetries > attempt then p.maxRetries - attempt else 0
  {
    if attempt >= p.maxRetries then Trace(NoneReturned, attempt, [])
    else if call(attempt).Returned? then Trace(Success(call(attempt).value), attempt + 1, [])
    else if !listed(call(attempt).exception) || attempt == p.maxRetries - 1 then
      Trace(Failed(call(attempt).exception), attempt + 1, [])
    else if currentDelay < 0.0 then
      Trace(Failed(NegativeSleep), attempt + 1, [])
    else
      var rest := RetryFrom(p, listed, call, attempt + 1, NextDelay(p, currentDelay));
      Trace(rest.result, rest.calls, [currentDelay] + rest.sleeps)
  }

  /** The whole run of a wrapped call: between one and max_retries calls
      with one sleep fewer than calls; None, without a call, exactly when no
      attempt is allowed. */
  function Retry<T>(p: RetryPolicy, listed: Exception -> bool, call: nat -> CallOutcome<T>): (t: Trace<T>)
    ensures t.result.NoneReturned? <==> p.maxRetries <= 0
    ensures p.maxRetries <= 0 ==> t.calls == 0 && t.sleeps == []
    ensures p.maxRetries > 0 ==> 1 <= t.calls <= p.maxRetries && |t.sleeps| == t.calls - 1
  {
    RetryFrom(p, listed, call, 0, p.delay)
  }

  /** A retried failure with a non-negative delay costs one sleep of that
      delay and moves on to the next attempt with the delay multiplied by the
      backoff factor. */
  lemma RetryStep<T>(p: RetryPolicy, listed: Exception -> bool, call: nat -> CallOutcome<T>, attempt: nat, d: real)
    requires attempt < p.maxRetries - 1 && call(attempt).Raised? && listed(call(attempt).exception)
    requires d >= 0.0
    ensures var rest := RetryFrom(p, listed, call, attempt + 1, NextDelay(p, d));
            RetryFrom(p, listed, call, attempt, d) == Trace(rest.result, rest.calls, [d] + rest.sleeps)
  {
  }

  /** The wrapper, step by step. */
  method RetryCall<T>(p: RetryPolicy, listed: Exception -> bool, call: nat -> CallOutcome<T>)
    returns (result: RetryResult<T>, calls: nat, sleeps: seq<real>)
    ensures Trace(result, calls, sleeps) == Retry(p, listed, call)
  {
    var currentDelay := p.delay;
    sleeps := [];
    calls := 0;
    var attempt: nat := 0;
    while attempt < p.maxRetries
      invariant calls == attempt
      invariant p.maxRetries > 0 ==> attempt <= p.maxRetries
      invariant var rest := RetryFrom(p, listed, call, attempt, currentDelay);
                Retry(p, listed, call) == Trace(rest.result, rest.calls, sleeps + rest.sleeps)
      decreases p.maxRetries - attempt
    {
      var outcome := call(attempt);
      calls := calls + 1;
      match outcome {
        case Returned(v) =>
          assert sleeps + [] == sleeps;
          return Success(v), calls, sleeps;
        case Raised(e) =>
          if !listed(e) || attempt == p.maxRetries - 1 {
            assert sleeps + [] == sleeps;
            return Failed(e), calls, sleeps;
          }
          if currentDelay < 0.0 {
            assert sleeps + [] == sleeps;
            return Failed(NegativeSleep), calls, sleeps;
          }
          var rest := RetryFrom(p, listed, call, attempt + 1, NextDelay(p, currentDelay));
          RetryStep(p, listed, call, attempt, currentDelay);
          assert sleeps + ([currentDelay] + rest.sleeps) == (sleeps + [currentDelay]) + rest.sleeps;
          sleeps := sleeps + [currentDelay];
          currentDelay := NextDelay(p, currentDelay);
      }
      attempt := attempt + 1;
    }
    assert sleeps + [] == sleeps;
    result := NoneReturned;
  }

  /** The k-th term of the geometric series starting at d. */
  function GeometricDelay(p: RetryPolicy, d: real, k: nat): real
  {
    d * Pow(p.backoffFactor, k)
  }

  /** The sleeps form a geometric series: the k-th sleep from an attempt
      entered with delay d is d * backoff^k. */
  lemma {:induction false} SleepsAreGeometric<T>(p: RetryPolicy, listed: Exception -> bool,
                                                 call: nat -> CallOutcome<T>, attempt: nat, d: real)
    ensures var t := RetryFrom(p, listed, call, attempt, d);
            forall k :: 0 <= k < |t.sleeps| ==> t.sleeps[k] == GeometricDelay(p, d, k)
    decreases if p.maxRetries > attempt then p.maxRetries - attempt else 0
  {
    var t := RetryFrom(p, listed, call, attempt, d);
    if attempt < p.maxRetries - 1 && call(attempt).Raised? && listed(call(attempt).exception) && d >= 0.0 {
      var next := NextDelay(p, d);
      SleepsAreGeometric(p, listed, call, attempt + 1, next);
      var rest := RetryFrom(p, listed, call, attempt + 1, next);
      RetryStep(p, listed, call, attempt, d);
      forall k | 0 <= k < |t.sleeps|
        ensures t.sleeps[k] == GeometricDelay(p, d, k)
      {
        if k > 0 {
          assert t.sleeps[k] == rest.sleeps[k - 1] == GeometricDelay(p, next, k - 1);
          assert Pow(p.backoffFactor, k) == Pow(p.backoffFactor, k - 1) * p.backoffFactor;
          assert next * Pow(p.backoffFactor, k - 1) == d * (Pow(p.backoffFactor, k - 1) * p.backoffFactor);
        } else {
          assert t.sleeps[0] == d && Pow(p.backoffFactor, 0) == 1.0;
        }
      }
    } else {
      assert t.sleeps == [];
    }
  }

  /** The wrapper's whole run sleeps delay, delay * backoff, delay * backoff^2, ... */
  lemma RetrySleeps<T>(p: RetryPolicy, listed: Exception -> bool, call: nat -> CallOutcome<T>)
    ensures var t := Retry(p, listed, call);
            forall k :: 0 <= k < |t.sleeps| ==> t.sleeps[k] == GeometricDelay(p, p.delay, k)
  {
    SleepsAreGeometric(p, listed, call, 0, p.delay);
  }

  /** Every attempt before i raises a listed exception. */
  ghost predicate FailsUntil<T>(listed: Exception -> bool, call: nat -> CallOutcome<T>, i: nat)
  {
    forall j: nat :: j < i ==> call(j).Raised? && listed(call(j).exception)
  }

  /** With a non-negative delay and factor, the first successful call is
      returned at once; the calls before it were retried with one sleep each. */
  lemma {:induction false} FirstSuccessReturned<T>(p: RetryPolicy, listed: Exception -> bool,
                                                   call: nat -> CallOutcome<T>, i: nat, attempt: nat, d: real)
    requires attempt <= i < p.maxRetries
    requires d >= 0.0 && p.backoffFactor >= 0.0
    requires call(i).Returned? && FailsUntil(listed, call, i)
    ensures var t := RetryFrom(p, listed, call, attempt, d);
            t.result == Success(call(i).value) && t.calls == i + 1 && |t.sleeps| == i - attempt
    decreases i - attempt
  {
    if attempt < i {
      assert call(attempt).Raised? && listed(call(attempt).exception);
      RetryStep(p, listed, call, attempt, d);
      FirstSuccessReturned(p, listed, call, i, attempt + 1, NextDelay(p, d));
    }
  }

  /** With a non-negative delay and factor, when every allowed attempt
      raises a listed exception, the last one is re-raised after max_retries
      calls and max_retries - 1 sleeps. */
  lemma {:induction false} TotalFailureReraisesLast<T>(p: RetryPolicy, listed: Exception -> bool,
                                                       call: nat -> CallOutcome<T>, attempt: nat, d: real)
    requires attempt < p.maxRetries
    requires d >= 0.0 && p.backoffFactor >= 0.0
    requires FailsUntil(listed, call, p.maxRetries)
    ensures var t := RetryFrom(p, listed, call, attempt, d);
            t.result == Failed(call(p.maxRetries - 1).exception) && t.calls == p.maxRetries
            && |t.sleeps| == p.maxRetries - 1 - attempt
    decreases p.maxRetries - attempt
  {
    assert call(attempt).Raised? && listed(call(attempt).exception);
    if attempt < p.maxRetries - 1 {
      RetryStep(p, listed, call, attempt, d);
      TotalFailureReraisesLast(p, listed, call, attempt + 1, NextDelay(p, d));
    }
  }

  /** With the default policy and three failures, the wrapper sleeps 1 and
      then 2 seconds and re-raises the third exception. */
  lemma DefaultPolicyFailure<T>(listed: Exception -> bool, call: nat -> CallOutcome<T>)
    requires FailsUntil(listed, call, 3)
    ensures Retry(DefaultPolicy, listed, call) == Trace(Failed(call(2).exception), 3, [1.0, 2.0])
  {
    assert call(0).Raised? && listed(call(0).exception);
    assert call(1).Raised? && listed(call(1).exception);
    assert call(2).Raised? && listed(call(2).exception);
  }

  /** An exception outside the listed ones propagates at once, without a retry. */
  lemma UnlistedPropagates<T>(p: RetryPolicy, listed: Exception -> bool, call: nat -> CallOutcome<T>)
    requires p.maxRetries >= 1 && call(0).Raised? && !listed(call(0).exception)
    ensures Retry(p, listed, call) == Trace(Failed(call(0).exception), 1, [])
  {
  }

  /** A negative initial delay: the first retried failure is followed by a
      sleep that raises ValueError, which escapes after a single call. */
  lemma NegativeDelayRaises<T>(p: RetryPolicy, listed: Exception -> bool, call: nat -> CallOutcome<T>)
    requires p.maxRetries >= 2 && p.delay < 0.0
    requires call(0).Raised? && listed(call(0).exception)
    ensures Retry(p, listed, call) == Trace(Failed(NegativeSleep), 1, [])
  {
  }

  /** A negative backoff factor: with delay 1 and factor -1, three listed
      failures sleep once for 1 second, then the second sleep (of -1) raises
      ValueError instead of the third call being made. */
  lemma NegativeBackoffRaisesOnSecondSleep<T>(listed: Exception -> bool, call: nat -> CallOutcome<T>)
    requires FailsUntil(listed, call, 3)
    ensures Retry(RetryPolicy(3, 1.0, -1.0), listed, call) == Trace(Failed(NegativeSleep), 2, [1.0])
  {
    assert call(0).Raised? && listed(call(0).exception);
    assert call(1).Raised? && listed(call(1).exception);
  }
}

=== FILE: executor.dfy ===
/** The simple executor driven by the backtester: one position record per
    symbol (direction, last price, size) and an append-only trade ledger in
    which every trade pays commission and closing trades carry their PnL. */
module SimpleExecution {

  /** The ledger's 'action': 'buy' for a positive signal, 'sell' otherwise. */
  datatype Action = BuyAction | SellAction

  /** A held position: the signal that opened it, the last traded price and the size. */
  datatype Holding = Holding(signal: int, price: real, size: real)

  /** One ledger entry. */
  datatype TradeRecord = TradeRecord(
    timestamp: int,
    symbol: string,
    action: Action,
    price: real,
    size: real,
    commission: real,
    pnl: real)

  /** Gross PnL of the held position minus commission on both legs, at the
      entry and the exit price, over the held size. Commission never adds to
      the gross, so a round trip at an unchanged price never makes money. */
  function ClosingPnl(commission: real, entryPrice: real, exitPrice: real, size: real, signal: int): (pnl: real)
    ensures commission >= 0.0 && size >= 0.0 && entryPrice + exitPrice >= 0.0
            ==> pnl <= (exitPrice - entryPrice) * size * signal as real
    ensures commission >= 0.0 && size >= 0.0 && entryPrice >= 0.0 && exitPrice == entryPrice ==> pnl <= 0.0
  {
    (exitPrice - entryPrice) * size * signal as real - (entryPrice + exitPrice) * size * commission
  }

  /** The effect of one `execute_trade` call: the new position table and the
      ledger entry it appends. */
  function TradeStep(commission: real, positions: map<string, Holding>, symbol: string,
                     signal: int, price: real, size: real, timestamp: int): (r: (map<string, Holding>, TradeRecord))
    ensures r.1.commission == price * size * commission
    ensures (r.1.action == BuyAction) <==> signal > 0
    ensures r.1.symbol == symbol && r.1.price == price && r.1.size == size && r.1.timestamp == timestamp
    ensures r.0.Keys <= positions.Keys + {symbol}
    ensures forall s :: s != symbol ==> (s in r.0 <==> s in positions)
    ensures forall s :: s != symbol && s in positions ==> r.0[s] == positions[s]
  {
    var action := if signal > 0 then BuyAction else SellAction;
    var fee := price * size * commission;
    if symbol in positions then
      var held := positions[symbol];
      if signal != held.signal then
        var pnl := ClosingPnl(commission, held.price, price, held.size, held.signal);
        (positions - {symbol}, TradeRecord(timestamp, symbol, action, price, size, fee, pnl))
      else
        (positions[symbol := Holding(held.signal, price, held.size + size)],
         TradeRecord(timestamp, symbol, action, price, size, fee, 0.0))
    else
      (positions[symbol := Holding(signal, price, size)],
       TradeRecord(timestamp, symbol, action, price, size, fee, 0.0))
  }

  /** A trade on a symbol with no position opens one and books no PnL. */
  lemma OpeningTrade(commission: real, positions: map<string, Holding>, symbol: string,
                     signal: int, price: real, size: real, timestamp: int)
    requires symbol !in positions
    ensures var (ps, t) := TradeStep(commission, positions, symbol, signal, price, size, timestamp);
            ps == positions[symbol := Holding(signal, price, size)] && t.pnl == 0.0
  {
  }

  /** Repeating the held signal adds to the size and overwrites the stored
      price with the latest price (it is not averaged); no PnL is booked. */
  lemma AddingTrade(commission: real, positions: map<string, Holding>, symbol: string,
                    signal: int, price: real, size: real, timestamp: int)
    requires symbol in positions && positions[symbol].signal == signal
    ensures var (ps, t) := TradeStep(commission, positions, symbol, signal, price, size, timestamp);
            symbol in ps && ps[symbol].size == positions[symbol].size + size
            && ps[symbol].price == price && ps[symbol].signal == signal && t.pnl == 0.0
  {
  }

  /** Any other signal closes the position: the PnL uses the held entry
      price, the held size and the held direction (not the size passed in),
      and the position is removed. */
  lemma ClosingTrade(commission: real, positions: map<string, Holding>, symbol: string,
                     signal: int, price: real, size: real, timestamp: int)
    requires symbol in positions && positions[symbol].signal != signal
    ensures var (ps, t) := TradeStep(commission, positions, symbol, signal, price, size, timestamp);
            var held := positions[symbol];
            ps == positions - {symbol}
            && t.pnl == (price - held.price) * held.size * held.signal as real
                        - (held.price + price) * held.size * commission
  {
  }

  /** Entry 100, size 10, exit 110 at 0.1% commission: 100 gross minus 2.1 in fees. */
  lemma WorkedClosingPnl()
    ensures ClosingPnl(0.001, 100.0, 110.0, 10.0, 1) == 97.9
  {
  }

  /** The executor: commission rate, position table and trade ledger. */
  class Executor {
    const commission: real
    var positions: map<string, Holding>
    var trades: seq<TradeRecord>

    constructor (commission: real)
      ensures this.commission == commission && positions == map[] && trades == []
    {
      this.commission := commission;
      positions := map[];
      trades := [];
    }

    /** Record a trade; open, add to or close the symbol's position. */
    method ExecuteTrade(symbol: string, signal: int, price: real, size: real, timestamp: int)
      returns (trade: TradeRecord)
      modifies this
      ensures (positions, trade) == TradeStep(commission, old(positions), symbol, signal, price, size, timestamp)
      ensures trades == old(trades) + [trade]
    {
      var action := if signal > 0 then BuyAction else SellAction;
      var fee := price * size * commission;
      var pnl: real;
      if symbol in positions {
        var held := positions[symbol];
        if signal != held.signal {
          pnl := ClosingPnl(commission, held.price, price, held.size, held.signal);
          positions := positions - {symbol};
        } else {
          pnl := 0.0;
          positions := positions[symbol := Holding(held.signal, price, held.size + size)];
        }
      } else {
        pnl := 0.0;
        positions := positions[symbol := Holding(signal, price, size)];
      }
      trade := TradeRecord(timestamp, symbol, action, price, size, fee, pnl);
      trades := trades + [trade];
    }
  }
}

=== FILE: risk_manager.dfy ===
/** The basic risk manager used by the backtester: volatility-scaled position
    sizing and the stop-loss / take-profit exit predicates. */
module RiskRules {
  import opened Common

  /** Division by zero (Python's ZeroDivisionError on float division). */
  datatype RiskError = ZeroDivision

  /** Constructor parameters: the largest position as a fraction of the
      portfolio, the stop-loss fraction and the take-profit fraction. */
  datatype RiskManager = RiskManager(maxPositionSize: real, stopLoss: real, takeProfit: real)

  /** The constructor's defaults. */
  const DefaultRiskManager: RiskManager := RiskManager(0.1, 0.02, 0.05)

  /** Notional cap on one position: portfolio value times the size fraction. */
  function Cap(rm: RiskManager, portfolioValue: real): real
  {
    portfolioValue * rm.maxPositionSize
  }

  /** Quantity to trade: the smaller of cap / (volatility * price) and
      cap / price; a zero product volatility * price is a division error. */
  function PositionSize(rm: RiskManager, portfolioValue: real, price: real, volatility: real): (r: Result<real, RiskError>)
    ensures r.Err? <==> volatility * price == 0.0
    ensures r.Ok? ==> r.value <= Cap(rm, portfolioValue) / price
    ensures r.Ok? ==> r.value <= Cap(rm, portfolioValue) / (volatility * price)
    ensures r.Ok? ==> r.value == Cap(rm, portfolioValue) / price
                      || r.value == Cap(rm, portfolioValue) / (volatility * price)
  {
    var cap := Cap(rm, portfolioValue);
    if volatility * price == 0.0 then
      Err(ZeroDivision)
    else
      var riskAdjusted := cap / (volatility * price);
      Ok(Min(riskAdjusted, cap / price))
  }

  /** With a non-negative cap, a positive price and 0 < volatility <= 1 the
      volatility term never binds: the size is exactly cap / price. */
  lemma SizeAtLowVolatility(rm: RiskManager, portfolioValue: real, price: real, volatility: real)
    requires Cap(rm, portfolioValue) >= 0.0 && price > 0.0
    requires 0.0 < volatility <= 1.0
    ensures PositionSize(rm, portfolioValue, price, volatility) == Ok(Cap(rm, portfolioValue) / price)
  {
    assert 0.0 < volatility * price <= price;
    DivAntitone(Cap(rm, portfolioValue), volatility * price, price);
  }

  /** Size is non-increasing in a positive volatility. */
  lemma SizeNonIncreasingInVolatility(rm: RiskManager, portfolioValue: real, price: real, v1: real, v2: real)
    requires Cap(rm, portfolioValue) >= 0.0 && price > 0.0
    requires 0.0 < v1 <= v2
    ensures PositionSize(rm, portfolioValue, price, v1).Ok?
    ensures PositionSize(rm, portfolioValue, price, v2).Ok?
    ensures PositionSize(rm, portfolioValue, price, v2).value <= PositionSize(rm, portfolioValue, price, v1).value
  {
    assert 0.0 < v1 * price <= v2 * price;
    DivAntitone(Cap(rm, portfolioValue), v1 * price, v2 * price);
  }

  /** A zero price is rejected as a division error whatever the volatility. */
  lemma ZeroPriceRejected(rm: RiskManager, portfolioValue: real, volatility: real)
    ensures PositionSize(rm, portfolioValue, 0.0, volatility) == Err(ZeroDivision)
  {
  }

  /** Stop-loss: a long exits strictly below entry * (1 - stopLoss), a short
      strictly above entry * (1 + stopLoss); a flat position never does. */
  function CheckStopLoss(rm: RiskManager, entryPrice: real, currentPrice: real, position: int): (hit: bool)
    ensures position == 0 ==> !hit
  {
    if position > 0 then currentPrice < entryPrice * (1.0 - rm.stopLoss)
    else if position < 0 then currentPrice > entryPrice * (1.0 + rm.stopLoss)
    else false
  }

  /** Take-profit: a long exits strictly above entry * (1 + takeProfit), a
      short strictly below entry * (1 - takeProfit); a flat position never does. */
  function CheckTakeProfit(rm: RiskManager, entryPrice: real, currentPrice: real, position: int): (hit: bool)
    ensures position == 0 ==> !hit
  {
    if position > 0 then currentPrice > entryPrice * (1.0 + rm.takeProfit)
    else if position < 0 then currentPrice < entryPrice * (1.0 - rm.takeProfit)
    else false
  }

  /** The boundary is strict: with entry 100 and a 2% stop, 97.99 triggers,
      98.00 and 98.01 do not. */
  lemma StopLossBoundary()
    ensures CheckStopLoss(DefaultRiskManager, 100.0, 97.99, 1)
    ensures !CheckStopLoss(DefaultRiskManager, 100.0, 98.0, 1)
    ensures !CheckStopLoss(DefaultRiskManager, 100.0, 98.01, 1)
  {
  }

  /** Stop-loss and take-profit exclude each other for non-negative
      fractions and a non-negative entry price, on either side. */
  lemma StopAndTakeExclusive(rm: RiskManager, entryPrice: real, currentPrice: real, position: int)
    requires rm.stopLoss >= 0.0 && rm.takeProfit >= 0.0 && entryPrice >= 0.0
    ensures !(CheckStopLoss(rm, entryPrice, currentPrice, position)
              && CheckTakeProfit(rm, entryPrice, currentPrice, position))
  {
    assert entryPrice * (1.0 - rm.stopLoss) <= entryPrice * (1.0 + rm.takeProfit);
    assert entryPrice * (1.0 - rm.takeProfit) <= entryPrice * (1.0 + rm.stopLoss);
  }

  /** Once a long's stop-loss triggers at some price, it triggers at every
      lower price; for a short, at every higher price. */
  lemma StopLossMonotone(rm: RiskManager, entryPrice: real, p: real, q: real, position: int)
    requires CheckStopLoss(rm, entryPrice, p, position)
    ensures position > 0 && q <= p ==> CheckStopLoss(rm, entryPrice, q, position)
    ensures position < 0 && q >= p ==> CheckStopLoss(rm, entryPrice, q, position)
  {
  }
}

=== FILE: strategy.dfy ===
/** The moving-average crossover strategy: long while the 20-period SMA is
    above the 50-period SMA, short while it is below, flat otherwise. */
module Crossover {
  import opened Common

  /** The two moving-average columns of one frame row; `None` is NaN (the
      warm-up rows before a window fills). */
  datatype SmaRow = SmaRow(sma20: Option<real>, sma50: Option<real>)

  /** Constructor parameters; the signal never reads them. */
  datatype MovingAverageCrossover = MovingAverageCrossover(shortWindow: int, longWindow: int)

  /** Signal of one row. A NaN on either side compares false both ways, so
      such a row stays 0. */
  function RowSignal(row: SmaRow): (s: int)
    ensures s == 1 <==> row.sma20.Some? && row.sma50.Some? && row.sma20.value > row.sma50.value
    ensures s == -1 <==> row.sma20.Some? && row.sma50.Some? && row.sma20.value < row.sma50.value
    ensures s == 0 <==> row.sma20.None? || row.sma50.None? || row.sma20.value == row.sma50.value
  {
    if row.sma20.Some? && row.sma50.Some? && row.sma20.value > row.sma50.value then 1
    else if row.sma20.Some? && row.sma50.Some? && row.sma20.value < row.sma50.value then -1
    else 0
  }

  /** One signal per row of the frame, each in {-1, 0, 1}. */
  function GenerateSignals(strategy: MovingAverageCrossover, rows: seq<SmaRow>): (r: seq<int>)
    ensures |r| == |rows|
    ensures forall t :: 0 <= t < |rows| ==> r[t] in {-1, 0, 1} && r[t] == RowSignal(rows[t])
  {
    seq(|rows|, t requires 0 <= t < |rows| => RowSignal(rows[t]))
  }

  /** The configured windows make no difference to the signals. */
  lemma SignalsIgnoreWindows(a: MovingAverageCrossover, b: MovingAverageCrossover, rows: seq<SmaRow>)
    ensures GenerateSignals(a, rows) == GenerateSignals(b, rows)
  {
  }

  /** Exchanging the two averages negates every signal. */
  lemma SwappingAveragesNegates(strategy: MovingAverageCrossover, rows: seq<SmaRow>)
    ensures var swapped := seq(|rows|, t requires 0 <= t < |rows| => SmaRow(rows[t].sma50, rows[t].sma20));
            forall t :: 0 <= t < |rows| ==> GenerateSignals(strategy, swapped)[t] == -GenerateSignals(strategy, rows)[t]
  {
  }

  /** Warm-up rows (either average still NaN) are flat; equal averages are flat. */
  lemma FlatRows(strategy: MovingAverageCrossover, x: real)
    ensures GenerateSignals(strategy, [SmaRow(None, Some(x)), SmaRow(Some(x), None), SmaRow(Some(x), Some(x))])
            == [0, 0, 0]
  {
  }
}
